=== FILE: README.md ===
# taskpay-rewards core, modelled in Dafny

TaskPay Rewards is a rewards-and-VTU platform. Users earn balance, buy
airtime and data ("VTU" services) from that balance, ask for payouts, and
claim free social-media accounts. Administrators enter tasks, ads and free
accounts through validated forms. This project models the parts of the
application that move money or decide who owns what:

- `VtuOrder` (`vtu_order.dfy`): the purchase edge function as one pure step
  over the buyer's wallet. It looks up the service and profile, prices the
  service with the agent multiplier, checks and debits the balance, writes
  the debit row and creates the order. It then tries the top-priority
  provider up to three times, logging every attempt, and closes the order
  with the atomic status update. The provider call is an oracle: a sequence
  of `Success(reference)` / `Failure(message)` answers, one per attempt.
  The store's answers are inputs too: the lookups and the writes whose
  errors the handler checks.
- `Providers` (`providers.dfy`): the provider query (`enabled`, highest
  priority first) and the head the engine picks.
- `Ledger` (`ledger.dfy`): wallet-transaction rows, the conservation law
  that links their `balance_before` / `balance_after` to the balance, the
  wallet page's history query, and its icon, colour and sign for each
  transaction type.
- `Validation` (`validation.dfy`) with `Text` (`text.dfy`): the five zod
  schemas of the admin and user forms. Each either rejects its input or
  returns it with the `.trim()` fields trimmed. `Text` holds JavaScript's
  `trim` (the ECMAScript whitespace set), UTF-16 `length`, `toLowerCase`
  and `includes`.
- `Payout` (`payout.dfy`): the payout page's submit handler.
- `FreeAccounts` (`free_accounts.dfy`): the free-account list, the guarded
  claim update, what each card reveals to its viewer, and the platform
  icon chosen from the platform name.
- `Schema` (`schema.dfy`) and `Common` (`common.dfy`): the store's
  enumerations with their wire names and parsers, the row shapes, and
  shared sequence helpers: filter, stable sort by a key with highest first,
  and take.

Money is `real`: exact, with no floating-point rounding. Timestamps are
integer ticks. User ids are non-empty strings, so "has an owner" and
"`claimed_by` is truthy" coincide.

The model follows the code wherever the documented behaviour says
otherwise:

- An order that exhausts its three attempts is marked failed, and **no
  refund** is issued. The code comments "Mark as failed and refund", but it
  only calls the status update, and no credit row or balance write
  follows. `VtuOrderProperties.NoRefundAfterExhaustion` states this.
- With no enabled provider, the loop still runs three attempts. Each one
  fails with "No providers available", writes a failure log and bumps
  `retry_count`, so the order ends with `retry_count` 3, not 0.
- Failure log rows carry no provider id. So "`retry_count` equals the
  number of log rows naming a provider" does not hold: `retry_count`
  counts the log rows with *no* provider (`NullProviderRows`).
- A missing user is reported with status 400, like every error raised
  before the order exists, not with 401.
- When the order insert fails, the handler writes the old balance back but
  does not remove the debit row. The ledger then no longer adds up
  (`VtuOrderProperties.OrderInsertFailureBreaksLedger`).
- zod's `.max(n, "… less than n …")` messages say "less than", but the
  bound is inclusive: a string of exactly `n` code units passes.

## Model

| member | source | states |
|---|---|---|
| `VtuOrder.Purchase` | supabase/functions/process-vtu-order/index.ts:30-207 | A request replies 400 exactly when it creates no order, which is exactly when it was not charged or the order insert failed. Nothing is written unless the balance was debited. Each check that fails before any write gives its own message, in order: "Unauthorized" without a user, "Service not found", "Profile not found", "Insufficient balance" (exactly when everything was found and the balance is below the cost, so a charged balance never goes negative), and "Failed to deduct balance". A failed order insert replies "Failed to create order" and restores the balance but keeps the debit row. Otherwise the request is the debit followed by placing the order. |
| `VtuOrder.DebitWallet` | supabase/functions/process-vtu-order/index.ts:70-91 | The balance drops by the cost. Unless its insert fails, one debit row is appended, recording the user, the cost and the balances before and after. Earlier rows, orders and logs are kept. |
| `VtuOrder.PlaceOrder` | supabase/functions/process-vtu-order/index.ts:93-200 | Exactly one order is appended and leaves the balance and ledger alone. The order carries the service's list price and the charged cost, and ends completed or failed. It replies 200 with the order as inserted exactly when completed. A completed order has a provider reference and no error. A failed one has `retry_count` 3, the last error and a 500 reply with it. The new log rows are the loop's, 1 to 3 of them, and `retry_count` equals the number of them without a provider. |
| `VtuOrder.RegularCostIgnoresRate` | supabase/functions/process-vtu-order/index.ts:61-63 | A regular user pays the base price, whatever rate the profile stores. |
| `VtuOrder.SalePriceTruthiness` | supabase/functions/process-vtu-order/index.ts:60 | A zero sale price counts the same as none, and both give the list price. Any other sale price replaces the list price. |
| `VtuOrder.RateTruthiness` | supabase/functions/process-vtu-order/index.ts:62 | A zero rate counts the same as none, and both give 1. Any other rate is used as it is. |
| `VtuOrder.AgentCostScalesRegularCost` | supabase/functions/process-vtu-order/index.ts:59-63 | An agent pays the regular cost times the rate. An agent with a missing or zero rate pays the regular cost, not nothing. |
| `VtuOrder.AgentMultiplier` | supabase/functions/process-vtu-order/index.ts:62 | The multiplier is never zero: it is the stored rate or 1. |
| `VtuOrder.BasePrice` | supabase/functions/process-vtu-order/index.ts:60 | The base price is the list price or the stored sale price. It is zero only when the list price is zero. |
| `VtuOrder.Cost` | supabase/functions/process-vtu-order/index.ts:59-63 | Agents and regular users alike pay nothing exactly when the base price is zero. No rate makes a priced service free. |
| `VtuOrder.AgentRateIsADiscount` | supabase/functions/process-vtu-order/index.ts:59-63 | With a rate in (0, 1] and a non-negative base price, an agent pays between 0 and what a regular user pays. |
| `VtuOrder.AgentRateAboveOneIsASurcharge` | supabase/functions/process-vtu-order/index.ts:61-63 | The rate is not clamped: 1.5 makes a 10.0 service cost 15.0. |
| `VtuOrder.AttemptAt` | supabase/functions/process-vtu-order/index.ts:122-161 | An attempt is fulfilled exactly when there is an enabled provider and it answers with a reference. The provider is then the top one. A failed attempt carries "No providers available" when there is none, and otherwise the provider's error. |
| `VtuOrder.LogFor` | supabase/functions/process-vtu-order/index.ts:140-174 | Every row carries the order, service and target. A row names a provider, and has status 200, exactly when its attempt succeeded; it then holds the reference and no attempt number or error. A failure row has status 0, the 1-based attempt number, no response and the attempt's error. |
| `VtuOrder.ProcessOrder` | supabase/functions/process-vtu-order/index.ts:152-189 | The status update writes the given status, and the reference or error message when one is given. It keeps every other column. |
| `VtuOrder.StatusCode` | supabase/functions/process-vtu-order/index.ts:191-207 | Every reply is 200, 400 or 500: 200 exactly for a completed order, 500 exactly for an exhausted one. |
| `VtuOrder.FirstFulfilled` | supabase/functions/process-vtu-order/index.ts:120-159 | Gives the first successful attempt: every earlier attempt failed. Gives none exactly when all remaining attempts fail. |
| `VtuOrder.AttemptsMade` | supabase/functions/process-vtu-order/index.ts:120-181 | The loop makes at least one attempt and never more than the attempts left. |
| `VtuOrder.LoopLogs` | supabase/functions/process-vtu-order/index.ts:140-174 | One log row per attempt made: up to and including the first success, or all three. |
| `VtuOrder.LoopLogsAt` | supabase/functions/process-vtu-order/index.ts:140-174 | Row `k` of those is attempt `k`'s row: the provider and 200 on success; no provider, status 0, the 1-based attempt number and the error on failure. |
| `VtuOrder.LoopLogsNullRows` | supabase/functions/process-vtu-order/index.ts:144-168 | All of the loop's rows but a successful attempt's name no provider. |
| `VtuOrder.RunAttempts` | supabase/functions/process-vtu-order/index.ts:117-181 | The loop succeeds exactly when some attempt is fulfilled. It appends exactly the loop's log rows to the earlier ones. |
| `VtuOrder.RunAttemptsOrder` | supabase/functions/process-vtu-order/index.ts:151-179 | On success the order is completed with that attempt's reference, and `retry_count` is left at the number of failed attempts before it. On exhaustion `retry_count` is 3 and the last error is attempt 3's message. |
| `VtuOrder.Fulfil` | supabase/functions/process-vtu-order/index.ts:116-200 | The order ends completed or failed. It is completed exactly when some attempt succeeded, and then by the top-priority provider. A completed order replies 200 with the inserted order. A failed order records the last error with `retry_count` 3 and replies 500 with that error. The loop's log rows are appended. |
| `Providers.EnabledByPriority` | supabase/functions/process-vtu-order/index.ts:122-127 | Returns exactly the enabled providers, as a permutation of them, sorted highest priority first. |
| `Providers.Top` | supabase/functions/process-vtu-order/index.ts:129-133 | None exactly when no provider is enabled. Otherwise an enabled provider of the table, with a priority at least that of every other enabled provider. |
| `Providers.HigherPriorityIsPicked` | supabase/functions/process-vtu-order/index.ts:122-133 | Of two enabled providers, the one with the higher priority is picked, whichever comes first in the table. |
| `Providers.TopIsStrictMaximum` | supabase/functions/process-vtu-order/index.ts:122-133 | An enabled provider whose priority is strictly above every other row's is the one picked, in any table. |
| `VtuOrderProperties.PurchaseKeepsLedgerLinked` | supabase/functions/process-vtu-order/index.ts:70-91 | When every write takes effect, a wallet whose rows chain from an opening balance to its balance still does so after any request. |
| `VtuOrderProperties.OrderInsertFailureBreaksLedger` | supabase/functions/process-vtu-order/index.ts:107-114 | If the order insert fails, the old balance is written back but the debit row stays, so for a non-zero cost the rows no longer add up to the balance. |
| `VtuOrderProperties.MissingDebitRowBreaksLedger` | supabase/functions/process-vtu-order/index.ts:81-91 | The wallet-transaction insert is unchecked: if it fails, the balance is debited with no row for it. |
| `VtuOrderProperties.NoRefundAfterExhaustion` | supabase/functions/process-vtu-order/index.ts:183-194 | A failed order leaves the balance at the old balance minus the cost. The only row the request adds is the debit. |
| `VtuOrderProperties.ExhaustedOrderLogsNameNoProvider` | supabase/functions/process-vtu-order/index.ts:160-179 | An exhausted order adds exactly 3 log rows, none naming a provider, all with status 0. |
| `VtuOrderProperties.ScenarioProviderSucceeds` | supabase/functions/process-vtu-order/index.ts:133-159 | A 20.0 purchase from a 100.0 wallet whose provider succeeds: 200, balance 80, one debit of 20, a completed order with the first reference and `retry_count` 0, and one log row with the provider and 200. |
| `VtuOrderProperties.ScenarioProviderAlwaysFails` | supabase/functions/process-vtu-order/index.ts:160-194 | A provider that always fails: 500 with its message, balance stays 80, a failed order with `retry_count` 3, and three log rows. |
| `VtuOrderProperties.ScenarioNoProviders` | supabase/functions/process-vtu-order/index.ts:129-131 | No enabled provider: "No providers available", `retry_count` 3, three log rows without a provider, balance stays 80. |
| `VtuOrderProperties.ScenarioInsufficientBalance` | supabase/functions/process-vtu-order/index.ts:65-68 | A balance of 10 against a cost of 20: 400 "Insufficient balance" and the state is unchanged. |
| `VtuOrderProperties.ScenarioExactBalance` | supabase/functions/process-vtu-order/index.ts:66 | A balance equal to the cost is accepted and ends at 0. |
| `VtuOrderProperties.ScenarioNoFailover` | supabase/functions/process-vtu-order/index.ts:120-138 | A lower-priority second provider is never tried. Two failures and then a success complete the order through the top provider on attempt 3, with `retry_count` 2. |
| `Ledger.LinkedConserves` | supabase/functions/process-vtu-order/index.ts:84-91 | If consecutive rows chain from an opening to a closing balance, the difference equals the signed sum of the rows' amounts. |
| `Ledger.AppendLinked` | supabase/functions/process-vtu-order/index.ts:84-91 | Appending a consistent row whose `balance_before` is the current balance keeps the chain, ending at its `balance_after`. |
| `Ledger.SignedDelta` | src/pages/Wallet.tsx:124 | A row changes the balance by its amount with the sign the wallet page shows for it. |
| `Ledger.History` | src/pages/Wallet.tsx:40-45 | Exactly 20 rows, or all the user's rows when they have fewer, counting repeated identical rows. The rows are drawn from the user's own rows without repeating any (a sub-multiset), newest first. A row of the user's that is left out is no newer than the last one shown. |
| `Ledger.DisplayAgreesWithDirection` | src/pages/Wallet.tsx:52-69 | For every transaction type, the green down-left icon, the green amount colour and the inflow direction coincide. The minus sign (line 124) appears exactly for debits and withdrawals. |
| `Ledger.DisplayDisagreesOffEnumeration` | src/pages/Wallet.tsx:52-69 | A type string outside the enumeration, "refund", gets the red outflow icon and colour but a '+' sign. |
| `Ledger.IconFor` | src/pages/Wallet.tsx:52-58 | The down-left arrow always comes with the green class. The icon and the amount colour pick the same names as money in, for every string. |
| `Ledger.ColorFor` | src/pages/Wallet.tsx:60-69 | The colour is green or red, and green only for credit, commission and topup. |
| `Ledger.SignPrefix` | src/pages/Wallet.tsx:124 | The sign is '-' or '+'. Every name signed '-' is also drawn with the red up-right arrow and red amount. |
| `Schema.ParsePayoutMethod` | src/integrations/supabase/types.ts:657 | Accepts exactly the three method names, returning the method with that name. |
| `Schema.ParseTaskType` | src/integrations/supabase/types.ts:666-672 | Accepts exactly the six task-type names. |
| `Schema.ParseAdType` | src/integrations/supabase/types.ts:648 | Accepts exactly "code" and "image". |
| `Schema.ParseAdPlacement` | src/integrations/supabase/types.ts:647 | Accepts exactly the four placement names. |
| `Schema.ParsersInvertNames` | src/integrations/supabase/types.ts:646-679 | Every enumeration value parses back from its wire name. |
| `Text.Trim` | src/lib/validationSchemas.ts:5 | The result neither starts nor ends with whitespace. It is empty exactly when the input is all whitespace. |
| `Text.TrimIgnoresPadding` | src/lib/validationSchemas.ts:5-7 | Whitespace added on either side never changes the trimmed value. |
| `Text.TrimIdempotent` | src/lib/validationSchemas.ts:5-7 | Trimming twice is trimming once. |
| `Text.JsLength` | src/lib/validationSchemas.ts:5 | The UTF-16 length lies between the number of code points and twice it. It equals the former exactly when no code point lies outside the Basic Multilingual Plane. |
| `Text.JsLengthChar` | src/lib/validationSchemas.ts:5 | A single character is one code unit long, or two when it lies outside the Basic Multilingual Plane. |
| `Text.JsLengthAppend` | src/lib/validationSchemas.ts:5 | The length of a concatenation is the sum of the lengths. With `Text.JsLengthChar` this fixes the length of every string as the sum of its characters' code units. |
| `Text.Lower` | src/pages/FreeAccounts.tsx:78 | The length is kept, and no ASCII capital letter is left. Every character other than an ASCII capital stays as it is. Each capital becomes its lower-case letter, 32 code points further on. |
| `Text.Contains` | src/pages/FreeAccounts.tsx:79-82 | True exactly when the needle occurs at some position of the string. |
| `Validation.ParseTask` | src/lib/validationSchemas.ts:4-11 | Accepts exactly when: the trimmed title is 1-200 code units; the trimmed description is 1-1000; the trimmed link is URL-shaped and at most 500; the reward is in [0.01, 10000]; the type is one of the six. It returns the form with those three fields trimmed. |
| `Validation.ParseTaskIdempotent` | src/lib/validationSchemas.ts:4-11 | Parsing an accepted task again changes nothing. |
| `Validation.ParseTaskIgnoresPadding` | src/lib/validationSchemas.ts:5-7 | Padding the title, description and link, each with its own whitespace on each side, changes neither the verdict nor the output. This includes padding one field alone. |
| `Validation.ScriptLinkIsAccepted` | src/lib/validationSchemas.ts:7 | The URL check only asks for a scheme, so "javascript:alert(1)" is a valid task link. |
| `Validation.AnyUrlShapedLinkIsAccepted` | src/lib/validationSchemas.ts:7 | An accepted task stays accepted with any link whose trimmed form is URL-shaped and at most 500 code units. |
| `Validation.ParsePayout` | src/lib/validationSchemas.ts:14-18 | Accepts exactly when: the amount is in [10, 10000]; the method is one of the three; the trimmed account details are 5-500 code units. It returns the details trimmed. |
| `Validation.ParsePayoutIdempotent` | src/lib/validationSchemas.ts:14-18 | Parsing accepted payout details again changes nothing. |
| `Validation.ParsePayoutIgnoresPadding` | src/lib/validationSchemas.ts:17 | Padding the account details changes neither the verdict nor the output. |
| `Validation.ParseFreeAccount` | src/lib/validationSchemas.ts:21-25 | Accepts exactly when the trimmed platform name and username are 1-100 code units and the untrimmed password is 8-100. It trims only the first two. |
| `Validation.ParseFreeAccountIdempotent` | src/lib/validationSchemas.ts:21-25 | Parsing an accepted free account again changes nothing. |
| `Validation.ParseFreeAccountIgnoresPadding` | src/lib/validationSchemas.ts:22-23 | Padding the platform name and the username, each with its own whitespace, changes neither the verdict nor the output. |
| `Validation.PaddedPasswordIsKept` | src/lib/validationSchemas.ts:24 | The password is not trimmed: "  abcd  " reaches the minimum of 8 and is kept with its spaces. |
| `Validation.ShortPasswordIsRejected` | src/lib/validationSchemas.ts:24 | "abcd" is rejected whatever the other fields are. |
| `Validation.ParseAd` | src/lib/validationSchemas.ts:28-33 | Accepts exactly when: the trimmed name is 1-200 code units; the type is code or image; the trimmed content is 1-5000; the placement list is non-empty and every entry is one of the four placements. It returns name and content trimmed. |
| `Validation.ParseAdIdempotent` | src/lib/validationSchemas.ts:28-33 | Parsing an accepted ad again changes nothing. |
| `Validation.ParseAdIgnoresPadding` | src/lib/validationSchemas.ts:29-31 | Padding the name and the content, each with its own whitespace, changes neither the verdict nor the output. |
| `Validation.ParseSubmission` | src/lib/validationSchemas.ts:36-42 | Accepts exactly when any username proof is at most 100 code units after trimming, and either that trimmed proof or the image is non-empty. It returns the proof trimmed and the image untouched. |
| `Validation.ParseSubmissionIdempotent` | src/lib/validationSchemas.ts:36-42 | Parsing an accepted submission again changes nothing. |
| `Validation.ParseSubmissionIgnoresPadding` | src/lib/validationSchemas.ts:37 | Padding the username proof changes neither the verdict nor the output. |
| `Validation.BlankUsernameProofIsNoProof` | src/lib/validationSchemas.ts:37-41 | A username proof of only spaces counts as absent: alone it is rejected, and with an image it is accepted. |
| `Payout.SubmitPayout` | src/pages/Payout.tsx:70-110 | Signed out does nothing. An amount above the balance is refused with "Insufficient balance" before the minimum is checked. An amount under 10 is refused with "Minimum payout amount is $10". A request is submitted exactly when a user is signed in, 10 ≤ amount ≤ balance and the insert succeeds. Then exactly one pending row is appended, holding the user, amount, method and account details. The balance is never changed, and nothing changes when no request is submitted. |
| `Payout.SubmitKeepsMinimum` | src/pages/Payout.tsx:80-94 | If every stored request is at least 10, that stays true after any submission. |
| `Payout.BoundariesAccepted` | src/pages/Payout.tsx:74-83 | Both bounds are inclusive: exactly 10, and exactly the whole balance, are accepted. |
| `Payout.BalanceCheckComesFirst` | src/pages/Payout.tsx:74-83 | An amount both under 10 and above the balance is reported as insufficient balance. |
| `Payout.SchemaAcceptedIsSubmitted` | src/pages/Payout.tsx:74-94 | Whatever the payout schema accepts, the handler submits when the balance covers it. |
| `Payout.AboveSchemaMaximumIsSubmitted` | src/pages/Payout.tsx:74-94 | The handler has no 10000 maximum: 20000 from a 30000 balance is submitted although the schema rejects it. |
| `Payout.ShortAccountIsSubmitted` | src/pages/Payout.tsx:87-94 | The handler has no length check on account details: "ab" is submitted although the schema rejects it. |
| `FreeAccounts.Listed` | src/pages/FreeAccounts.tsx:32-38 | Lists exactly the active accounts, as a permutation of them, newest first. |
| `FreeAccounts.Claim` | src/pages/FreeAccounts.tsx:50-75 | No selection or no user does nothing. A store error is reported and changes nothing. Otherwise success is reported. Every unclaimed row of the selected account becomes the user's, stamped with the time. Rows already claimed, and other accounts' rows, are untouched. |
| `FreeAccounts.ClaimRow` | src/pages/FreeAccounts.tsx:55-62 | Only the ownership columns change. An owner is never replaced, and another account's row is never touched. An unowned row of the selected account becomes the claimer's, stamped with the time. |
| `FreeAccounts.SecondClaimChangesNothing` | src/pages/FreeAccounts.tsx:55-66 | After a claim, every row of the account has an owner. A later claim by anyone changes nothing, yet still reports success. |
| `FreeAccounts.ClaimAllOnClaimed` | src/pages/FreeAccounts.tsx:55-62 | Once an account is fully claimed, any number of further claims leave the rows as they are. |
| `FreeAccounts.ClaimAll` | src/pages/FreeAccounts.tsx:55-62 | However many claims follow one another, owned rows and other accounts' rows stay as they were. |
| `FreeAccounts.FirstClaimerOwns` | src/pages/FreeAccounts.tsx:55-62 | When users claim an unclaimed account one after another, it ends up owned by the first of them. |
| `FreeAccounts.IsClaimed` | src/pages/FreeAccounts.tsx:117 | An account is claimed exactly when some signed-in viewer would see it as theirs. |
| `FreeAccounts.IsClaimedByUser` | src/pages/FreeAccounts.tsx:118 | A signed-out viewer owns nothing, an account has at most one owner, and the owner sees the account as theirs. |
| `FreeAccounts.CardFor` | src/pages/FreeAccounts.tsx:117-164 | Credentials are shown exactly to the signed-in owner, and they are the row's username and password. The claim button is shown exactly on unclaimed accounts, so never together with credentials. The "Yours" badge goes with the credentials. The "Claimed" badge appears exactly when someone other than the viewer owns the account. |
| `FreeAccounts.ClaimRevealsCredentialsOnlyToClaimer` | src/pages/FreeAccounts.tsx:117-164 | After a successful claim, the claimer's card shows the credentials. Any other viewer sees neither the credentials nor a claim button. |
| `FreeAccounts.PlatformIcon` | src/pages/FreeAccounts.tsx:77-84 | The first keyword group the lower-cased name contains decides, in this order: "instagram"/"ig" gives Instagram, then "twitter"/"x" Twitter, "youtube"/"yt" Youtube, "telegram" Send. A name with none of the seven keywords gets the default icon. Each case is stated in both directions. |
| `FreeAccounts.PlatformIconIgnoresCase` | src/pages/FreeAccounts.tsx:78 | Lower-casing the name first does not change the icon. |
| `FreeAccounts.NoKeywordLettersMeansDefaultIcon` | src/pages/FreeAccounts.tsx:77-84 | A name with none of the letters i, w, x, y, l gets the default icon. |
| `FreeAccounts.TelegramWithoutEarlierKeywordGetsSend` | src/pages/FreeAccounts.tsx:79-82 | A name that contains "telegram" and none of i, w, x, y gets the Send icon. |
| `FreeAccounts.NetflixGetsTwitterIcon` | src/pages/FreeAccounts.tsx:80 | Substring matching misfires: "Netflix" gets the Twitter icon through its "x". |
| `FreeAccounts.AnyXGetsTwitterIcon` | src/pages/FreeAccounts.tsx:79-80 | A name with an "x" and neither "s" nor "g" gets the Twitter icon. |
| `FreeAccounts.DigitalOceanGetsInstagramIcon` | src/pages/FreeAccounts.tsx:79 | "Digital Ocean" gets the Instagram icon through its "ig". |
| `FreeAccounts.TelegramGetsSendIcon` | src/pages/FreeAccounts.tsx:82 | "Telegram" gets the Send icon. |
| `FreeAccounts.SnapchatGetsDefaultIcon` | src/pages/FreeAccounts.tsx:83 | "Snapchat" gets the default icon. |

## Left out

- The HTTP layer is not modelled: CORS preflight, headers, JSON bodies, and the 400 that a malformed request body would produce. A request is already a user, a service id and a target.
- Authentication is an input: the signed-in user, or none.
- The provider call is an oracle sequence of answers. Its latency, randomness and reference format are left out.
- The provider table is read once per request. The code re-reads it on each attempt, but nothing in the request changes it between reads.
- Writes whose errors the handler ignores are assumed to take effect: provider-log inserts, `retry_count` updates, the status update and the balance restore. The one exception is the wallet-transaction insert, which is a fault input because its failure changes the ledger.
- The body of the `process_order` database function is not part of this model. It is modelled as writing the status with the provider reference or error message it is given, and nothing else.
- Concurrency is not modelled: two purchases, or two claims, never interleave. Claim races appear only as claims applied one after another.
- Floating point, `toFixed(2)` display and `parseFloat` producing NaN are left out: amounts are exact reals.
- Validation.UrlShaped: approximates the WHATWG URL parser behind zod's `.url()`. It checks a scheme, a colon and, for http, https, ws, wss and ftp, a non-empty host. Host syntax, ports and percent-encoding are not checked.
- Text.Lower: lower-cases ASCII letters only. JavaScript's full Unicode case mapping is left out.
- zod's error messages are left out: each schema only accepts or rejects, and returns its output.
- Payout.SubmitPayout: the balance it checks is the one the page last fetched, modelled as the store's balance. The page's refresh of history and balance after submitting is left out.
- The admin pages, the order-retry path, the notification and one-time-password functions, and all rendering beyond the card contents are left out.
- Wallet and free-account timestamps are integer ticks. Rows with equal timestamps keep their table order, and so do enabled providers of equal priority (`Providers.EnabledByPriority`); the store leaves both orders unspecified.

=== FILE: common.dfy ===
/** Shared building blocks: an option type, user identifiers, and the
    sequence operations (filtering, stable sorting by a key, taking a prefix)
    that the store queries of the application are built from. */
module Common {

  /** A value that may be absent (`null` in a row, `undefined` in a form). */
  datatype Option<+T> = None | Some(value: T)

  /** User ids are the store's uuids: never the empty string, so a present
      id is always truthy in the client code. */
  type UserId = s: string | s != "" witness "user"

  /** The elements of `xs` that satisfy `keep`, in their original order
      (a `.eq(...)` filter of a query). */
  function Filter<T(!new)>(xs: seq<T>, keep: T -> bool): (r: seq<T>)
    ensures |r| <= |xs|
    ensures forall x :: x in r <==> x in xs && keep(x)
    ensures forall i :: 0 <= i < |r| ==> keep(r[i])
    // no element is dropped or duplicated: a kept value occurs as often as in `xs`
    ensures multiset(r) <= multiset(xs)
    ensures forall x :: keep(x) ==> multiset(r)[x] == multiset(xs)[x]
  {
    if |xs| == 0 then []
    else
      assert xs == [xs[0]] + xs[1..];
      if keep(xs[0]) then [xs[0]] + Filter(xs[1..], keep)
      else Filter(xs[1..], keep)
  }

  /** `xs` is ordered by `key`, largest first (an `ascending: false` order). */
  ghost predicate SortedDesc<T>(xs: seq<T>, key: T -> int) {
    forall i, j :: 0 <= i < j < |xs| ==> key(xs[i]) >= key(xs[j])
  }

  /** The head of a descending sequence has the largest key. */
  lemma HeadIsLargest<T>(xs: seq<T>, key: T -> int)
    requires SortedDesc(xs, key) && |xs| > 0
    ensures forall y :: y in xs ==> key(xs[0]) >= key(y)
  {
    forall y | y in xs ensures key(xs[0]) >= key(y) {
      var i :| 0 <= i < |xs| && xs[i] == y;
      assert i == 0 || key(xs[0]) >= key(xs[i]);
    }
  }

  /** An element at least as large as everything in a descending sequence
      can be put in front of it. */
  lemma ConsSorted<T>(h: T, xs: seq<T>, key: T -> int)
    requires SortedDesc(xs, key)
    requires forall y :: y in xs ==> key(h) >= key(y)
    ensures SortedDesc([h] + xs, key)
  {
    var r := [h] + xs;
    forall i, j | 0 <= i < j < |r| ensures key(r[i]) >= key(r[j]) {
      assert r[j] == xs[j - 1];
      if i > 0 {
        assert r[i] == xs[i - 1];
      }
    }
  }

  /** Inserts `x` into a descending sequence after every element with a
      strictly larger key and before the rest. */
  function InsertDesc<T(!new)>(x: T, xs: seq<T>, key: T -> int): (r: seq<T>)
    requires SortedDesc(xs, key)
    ensures SortedDesc(r, key)
    ensures multiset(r) == multiset(xs) + multiset{x}
    ensures forall y :: y in r <==> y in xs || y == x
  {
    if |xs| == 0 || key(x) >= key(xs[0]) then [x] + xs
    else
      var rest := InsertDesc(x, xs[1..], key);
      assert xs == [xs[0]] + xs[1..];
      HeadIsLargest(xs, key);
      ConsSorted(xs[0], rest, key);
      [xs[0]] + rest
  }

  /** A stable insertion sort, largest key first: elements with equal keys
      keep their relative order. */
  function SortDesc<T(!new)>(xs: seq<T>, key: T -> int): (r: seq<T>)
    ensures SortedDesc(r, key)
    ensures multiset(r) == multiset(xs)
    ensures |r| == |xs|
    ensures forall y :: y in r <==> y in xs
  {
    if |xs| == 0 then []
    else
      var rest := SortDesc(xs[1..], key);
      assert xs == [xs[0]] + xs[1..];
      InsertDesc(xs[0], rest, key)
  }

  /** The first `n` elements of `xs`, or all of them when there are fewer
      (a `.limit(n)` on a query). */
  function Take<T>(xs: seq<T>, n: nat): (r: seq<T>)
    ensures |r| == if |xs| <= n then |xs| else n
    ensures r == xs[..|r|]
  {
    if |xs| <= n then xs else xs[..n]
  }

  /** A prefix of a descending sequence is descending, and whatever it
      leaves out is no larger than its last element. */
  lemma TakeKeepsLargest<T>(xs: seq<T>, key: T -> int, n: nat)
    requires SortedDesc(xs, key) && n > 0
    ensures SortedDesc(Take(xs, n), key)
    ensures multiset(Take(xs, n)) <= multiset(xs)
    ensures forall y :: y in Take(xs, n) ==> y in xs
    ensures forall y :: y in xs && y !in Take(xs, n) ==>
              |Take(xs, n)| == n > 0 && key(Take(xs, n)[n - 1]) >= key(y)
  {
    var r := Take(xs, n);
    assert xs == r + xs[|r|..];
    forall y | y in xs && y !in r ensures |r| == n > 0 && key(r[n - 1]) >= key(y) {
      var i :| 0 <= i < |xs| && xs[i] == y;
      assert r == xs[..n];
      assert r[n - 1] == xs[n - 1];
    }
  }
}

=== FILE: free_accounts.dfy ===
/** The free-accounts page: the list of active accounts, the guarded claim
    update, what each card shows to the viewer, and the platform icon. */
module FreeAccounts {
  import opened Common
  import opened Text

  /** A `free_accounts` row. */
  datatype FreeAccount = FreeAccount(
    id: string, platformName: string, username: string, password: string,
    status: bool, claimedBy: Option<UserId>, claimedAt: Option<int>, createdAt: int)

  function CreatedAt(a: FreeAccount): int { a.createdAt }

  /** The page's query: `status = true`, newest first. */
  function Listed(rows: seq<FreeAccount>): (r: seq<FreeAccount>)
    ensures forall a :: a in r <==> a in rows && a.status
    ensures SortedDesc(r, CreatedAt)
    ensures multiset(r) == multiset(Filter(rows, (a: FreeAccount) => a.status))
  {
    SortDesc(Filter(rows, (a: FreeAccount) => a.status), CreatedAt)
  }

  // ---- Claiming ---------------------------------------------------------

  datatype ClaimOutcome = Ignored | ReportedSuccess | ReportedError

  datatype ClaimResult = ClaimResult(outcome: ClaimOutcome, accounts: seq<FreeAccount>)

  /** The row after `update { claimed_by, claimed_at } where id = selected
      and claimed_by is null`. */
  function ClaimRow(a: FreeAccount, id: string, u: UserId, now: int): (r: FreeAccount)
    // only the ownership columns can change
    ensures r.(claimedBy := a.claimedBy, claimedAt := a.claimedAt) == a
    // an owner is never replaced, and another account's row is never touched
    ensures a.claimedBy.Some? || a.id != id ==> r == a
    // the selected row ends up owned, by the claimer when it had no owner
    ensures a.id == id ==> r.claimedBy.Some?
    ensures a.id == id && a.claimedBy.None? ==> r.claimedBy == Some(u) && r.claimedAt == Some(now)
  {
    if a.id == id && a.claimedBy.None? then a.(claimedBy := Some(u), claimedAt := Some(now)) else a
  }

  /** The claim handler. With no selected account or no signed-in user it
      does nothing. Otherwise it runs the guarded update and reports success
      whenever the store returns no error, even when the guard matched no
      row because someone else claimed the account first. */
  function Claim(accounts: seq<FreeAccount>, selected: Option<FreeAccount>, user: Option<UserId>,
                 now: int, updateFails: bool): (r: ClaimResult)
    ensures selected.None? || user.None? ==> r == ClaimResult(Ignored, accounts)
    ensures selected.Some? && user.Some? && updateFails ==> r == ClaimResult(ReportedError, accounts)
    ensures selected.Some? && user.Some? && !updateFails ==> r.outcome == ReportedSuccess
    ensures |r.accounts| == |accounts|
    // rows that are already claimed, or that are another account, are left alone
    ensures forall i :: 0 <= i < |accounts| && (accounts[i].claimedBy.Some? || selected.None? || accounts[i].id != selected.value.id) ==>
              r.accounts[i] == accounts[i]
    // the selected row, if still unclaimed, now belongs to the user
    ensures r.outcome == ReportedSuccess ==>
              forall i :: 0 <= i < |accounts| && accounts[i].id == selected.value.id && accounts[i].claimedBy.None? ==>
                r.accounts[i] == accounts[i].(claimedBy := Some(user.value), claimedAt := Some(now))
  {
    if selected.None? || user.None? then ClaimResult(Ignored, accounts)
    else if updateFails then ClaimResult(ReportedError, accounts)
    else
      var id, u := selected.value.id, user.value;
      ClaimResult(ReportedSuccess, seq(|accounts|, i requires 0 <= i < |accounts| => ClaimRow(accounts[i], id, u, now)))
  }

  /** Whether every row with the given id has an owner. */
  ghost predicate AllClaimed(accounts: seq<FreeAccount>, id: string) {
    forall i :: 0 <= i < |accounts| && accounts[i].id == id ==> accounts[i].claimedBy.Some?
  }

  /** Claim once: after a successful claim every row of that account has an
      owner, and a later claim of it by anyone changes nothing, although
      the page still reports success. */
  lemma SecondClaimChangesNothing(accounts: seq<FreeAccount>, selected: FreeAccount, u: UserId, v: UserId, t1: int, t2: int)
    ensures var first := Claim(accounts, Some(selected), Some(u), t1, false);
            var second := Claim(first.accounts, Some(selected), Some(v), t2, false);
            && AllClaimed(first.accounts, selected.id)
            && second.outcome == ReportedSuccess
            && second.accounts == first.accounts
  {
  }

  /** Claims of one account by a sequence of users, in order. */
  function ClaimAll(accounts: seq<FreeAccount>, selected: FreeAccount, claimers: seq<UserId>, now: int): (r: seq<FreeAccount>)
    ensures |r| == |accounts|
    // however many claims there are, owned rows and other accounts' rows stay as they were
    ensures forall i :: 0 <= i < |accounts| && (accounts[i].claimedBy.Some? || accounts[i].id != selected.id) ==>
              r[i] == accounts[i]
    decreases |claimers|
  {
    if |claimers| == 0 then accounts
    else ClaimAll(Claim(accounts, Some(selected), Some(claimers[0]), now, false).accounts, selected, claimers[1..], now)
  }

  /** Once all rows of an account are claimed, further claims leave the
      rows as they are. */
  lemma {:induction false} ClaimAllOnClaimed(accounts: seq<FreeAccount>, selected: FreeAccount, claimers: seq<UserId>, now: int)
    requires AllClaimed(accounts, selected.id)
    ensures ClaimAll(accounts, selected, claimers, now) == accounts
    decreases |claimers|
  {
    if |claimers| > 0 {
      var next := Claim(accounts, Some(selected), Some(claimers[0]), now, false).accounts;
      assert next == accounts;
      ClaimAllOnClaimed(next, selected, claimers[1..], now);
    }
  }

  /** The first claimer wins: whatever users claim an unclaimed account one
      after another, the account ends up owned by the first of them. */
  lemma FirstClaimerOwns(accounts: seq<FreeAccount>, selected: FreeAccount, claimers: seq<UserId>, now: int)
    requires |claimers| > 0
    ensures var r := ClaimAll(accounts, selected, claimers, now);
            forall i :: 0 <= i < |accounts| && accounts[i].id == selected.id && accounts[i].claimedBy.None? ==>
              r[i].claimedBy == Some(claimers[0])
  {
    var first := Claim(accounts, Some(selected), Some(claimers[0]), now, false).accounts;
    SecondClaimChangesNothing(accounts, selected, claimers[0], claimers[0], now, now);
    ClaimAllOnClaimed(first, selected, claimers[1..], now);
  }

  // ---- The card ------------------------------------------------------------

  /** `!!account.claimed_by`: user ids are never empty, so any owner counts. */
  function IsClaimed(a: FreeAccount): (b: bool)
    // claimed exactly when some signed-in viewer would see the account as theirs
    ensures b <==> exists v: UserId :: IsClaimedByUser(a, Some(v))
  {
    if a.claimedBy.Some? then
      assert IsClaimedByUser(a, a.claimedBy);
      true
    else false
  }

  /** `account.claimed_by === user?.id`: false when nobody is signed in. */
  function IsClaimedByUser(a: FreeAccount, viewer: Option<UserId>): (b: bool)
    // nobody signed out owns anything, and an account has at most one owner
    ensures b ==> viewer.Some? && a.claimedBy.Some?
    ensures b ==> forall w: UserId :: a.claimedBy == Some(w) ==> w == viewer.value
    ensures a.claimedBy.Some? && viewer == a.claimedBy ==> b
  {
    viewer.Some? && a.claimedBy == viewer
  }

  datatype Badge = Yours | ClaimedBadge

  datatype Credentials = Credentials(username: string, password: string)

  datatype Card = Card(icon: Icon, title: string, badge: Option<Badge>, credentials: Option<Credentials>,
                       note: Option<string>, claimButton: bool, dimmed: bool)

  const ClaimedByAnotherNote := "This account has been claimed by another user"
  const ClickToClaimNote := "Click to claim this account"

  /** The card an account gets for the viewer. */
  function CardFor(a: FreeAccount, viewer: Option<UserId>): (c: Card)
    ensures c.credentials.Some? <==> viewer.Some? && a.claimedBy == viewer
    ensures c.credentials.Some? ==> c.credentials.value == Credentials(a.username, a.password)
    ensures c.claimButton <==> a.claimedBy.None?
    ensures !(c.credentials.Some? && c.claimButton)
    ensures c.badge == Some(Yours) <==> c.credentials.Some?
    ensures c.badge == Some(ClaimedBadge) <==> a.claimedBy.Some? && a.claimedBy != viewer
    ensures c.note.Some? <==> c.credentials.None?
    ensures c.dimmed <==> !c.claimButton
    ensures c.icon == PlatformIcon(a.platformName) && c.title == a.platformName
  {
    var mine := IsClaimedByUser(a, viewer);
    var claimed := IsClaimed(a);
    Card(PlatformIcon(a.platformName), a.platformName,
         if !claimed then None else if mine then Some(Yours) else Some(ClaimedBadge),
         if mine then Some(Credentials(a.username, a.password)) else None,
         if mine then None else if claimed then Some(ClaimedByAnotherNote) else Some(ClickToClaimNote),
         !claimed, claimed)
  }

  /** After a successful claim of an unclaimed row, the claimer sees its
      credentials, and every other viewer sees neither the credentials nor
      a claim button. */
  lemma ClaimRevealsCredentialsOnlyToClaimer(accounts: seq<FreeAccount>, selected: FreeAccount, u: UserId, now: int,
                                            i: nat, viewer: Option<UserId>)
    requires i < |accounts| && accounts[i].id == selected.id && accounts[i].claimedBy.None?
    ensures var a := Claim(accounts, Some(selected), Some(u), now, false).accounts[i];
            && CardFor(a, Some(u)).credentials == Some(Credentials(accounts[i].username, accounts[i].password))
            && (viewer != Some(u) ==> CardFor(a, viewer).credentials.None? && !CardFor(a, viewer).claimButton)
  {
  }

  // ---- Platform icon -------------------------------------------------------

  datatype Icon = Instagram | Twitter | Youtube | Send | CheckCircle2

  /** `getPlatformIcon`: the first keyword group found in the lower-cased
      name decides, in the order Instagram, Twitter, Youtube, Telegram. */
  function PlatformIcon(name: string): (r: Icon)
    ensures var l := Lower(name);
            && (r == Instagram <==> (exists i: nat :: OccursAt(l, "instagram", i)) || (exists i: nat :: OccursAt(l, "ig", i)))
            && (r == Twitter <==>
                  !Contains(l, "instagram") && !Contains(l, "ig") && (Contains(l, "twitter") || Contains(l, "x")))
            && (r == Youtube <==>
                  !Contains(l, "instagram") && !Contains(l, "ig") && !Contains(l, "twitter") && !Contains(l, "x")
                  && (Contains(l, "youtube") || Contains(l, "yt")))
            && (r == Send <==>
                  !Contains(l, "instagram") && !Contains(l, "ig") && !Contains(l, "twitter") && !Contains(l, "x")
                  && !Contains(l, "youtube") && !Contains(l, "yt") && Contains(l, "telegram"))
            && (r == CheckCircle2 <==>
                  !Contains(l, "instagram") && !Contains(l, "ig") && !Contains(l, "twitter") && !Contains(l, "x")
                  && !Contains(l, "youtube") && !Contains(l, "yt") && !Contains(l, "telegram"))
  {
    var l := Lower(name);
    if Contains(l, "instagram") || Contains(l, "ig") then Instagram
    else if Contains(l, "twitter") || Contains(l, "x") then Twitter
    else if Contains(l, "youtube") || Contains(l, "yt") then Youtube
    else if Contains(l, "telegram") then Send
    else CheckCircle2
  }

  /** The icon does not depend on the case of the name. */
  lemma PlatformIconIgnoresCase(name: string)
    ensures PlatformIcon(Lower(name)) == PlatformIcon(name)
  {
    LowerIdempotent(name);
  }

  /** A name whose lower-cased form has none of the letters i, w, x, y and
      l contains none of the keywords, so it gets the default icon. */
  lemma NoKeywordLettersMeansDefaultIcon(name: string)
    requires var l := Lower(name); 'i' !in l && 'w' !in l && 'x' !in l && 'y' !in l && 'l' !in l
    ensures PlatformIcon(name) == CheckCircle2
  {
    var l := Lower(name);
    MissingCharNotContained(l, "instagram", 0);
    MissingCharNotContained(l, "ig", 0);
    MissingCharNotContained(l, "twitter", 1);
    MissingCharNotContained(l, "x", 0);
    MissingCharNotContained(l, "youtube", 0);
    MissingCharNotContained(l, "yt", 0);
    MissingCharNotContained(l, "telegram", 2);
  }

  lemma SnapchatGetsDefaultIcon()
    ensures PlatformIcon("Snapchat") == CheckCircle2
  {
    assert Lower("Snapchat") == "snapchat";
    NoKeywordLettersMeansDefaultIcon("Snapchat");
  }

  /** Single-letter and two-letter keywords match inside unrelated names:
      "Netflix" gets the Twitter icon through its "x" ... */
  lemma NetflixGetsTwitterIcon()
    ensures PlatformIcon("Netflix") == Twitter
  {
    assert Lower("Netflix") == "netflix";
    AnyXGetsTwitterIcon("Netflix", 6);
  }

  /** Any name with an "x" and neither an "s" nor a "g" (so no Instagram
      keyword) gets the Twitter icon. */
  lemma AnyXGetsTwitterIcon(name: string, k: nat)
    requires var l := Lower(name); 's' !in l && 'g' !in l && k < |l| && l[k] == 'x'
    ensures PlatformIcon(name) == Twitter
  {
    var l := Lower(name);
    MissingCharNotContained(l, "instagram", 2);
    MissingCharNotContained(l, "ig", 1);
    assert OccursAt(l, "x", k);
  }

  /** ... and "Digital Ocean" gets the Instagram icon through its "ig". */
  lemma DigitalOceanGetsInstagramIcon()
    ensures PlatformIcon("Digital Ocean") == Instagram
  {
    assert Lower("Digital Ocean") == "digital ocean";
    assert OccursAt("digital ocean", "ig", 1);
  }

  /** A name that mentions "telegram" and has none of the letters i, w, x
      and y gets the Send icon. */
  lemma TelegramWithoutEarlierKeywordGetsSend(name: string)
    requires var l := Lower(name); 'i' !in l && 'w' !in l && 'x' !in l && 'y' !in l && Contains(l, "telegram")
    ensures PlatformIcon(name) == Send
  {
    var l := Lower(name);
    MissingCharNotContained(l, "instagram", 0);
    MissingCharNotContained(l, "ig", 0);
    MissingCharNotContained(l, "twitter", 1);
    MissingCharNotContained(l, "x", 0);
    MissingCharNotContained(l, "youtube", 0);
    MissingCharNotContained(l, "yt", 0);
  }

  lemma TelegramGetsSendIcon()
    ensures PlatformIcon("Telegram") == Send
  {
    assert Lower("Telegram") == "telegram";
    assert OccursAt("telegram", "telegram", 0);
    TelegramWithoutEarlierKeywordGetsSend("Telegram");
  }
}

=== FILE: ledger.dfy ===
/** The wallet ledger as the wallet page reads it: which transaction types
    count as money in and which as money out, the signed effect of a row on
    the balance, what a consistent chain of rows looks like, and the
    transaction-history query. */
module Ledger {
  import opened Common
  import opened Schema

  /** The direction of the arrow drawn next to a row. */
  datatype Arrow = ArrowDownLeft | ArrowUpRight

  datatype TransactionIcon = TransactionIcon(arrow: Arrow, className: string)

  /** The wallet page receives the type as a raw string; `IconFor`,
      `ColorFor` and `SignPrefix` are its three independent tests of it.

      The icon: a green down-left arrow for credit, commission and topup,
      a red up-right arrow for everything else. */
  function IconFor(kind: string): (r: TransactionIcon)
    // the arrow and its colour class go together
    ensures r.arrow == ArrowDownLeft <==> r.className == "h-5 w-5 text-green-500"
    // the icon and the amount colour test the same three names
    ensures r.arrow == ArrowDownLeft <==> ColorFor(kind) == "text-green-600"
  {
    if kind == "credit" || kind == "commission" || kind == "topup"
    then TransactionIcon(ArrowDownLeft, "h-5 w-5 text-green-500")
    else TransactionIcon(ArrowUpRight, "h-5 w-5 text-red-500")
  }

  /** The amount colour: green for credit, commission and topup, red by default. */
  function ColorFor(kind: string): (c: string)
    ensures c == "text-green-600" || c == "text-red-600"
    ensures c == "text-green-600" ==> kind in {"credit", "commission", "topup"}
  {
    match kind
    case "credit" => "text-green-600"
    case "commission" => "text-green-600"
    case "topup" => "text-green-600"
    case _ => "text-red-600"
  }

  /** The sign in front of the amount: '-' for debit and withdrawal, '+' otherwise. */
  function SignPrefix(kind: string): (p: string)
    ensures p == "-" || p == "+"
    // every name signed '-' is also drawn as money out
    ensures p == "-" ==> IconFor(kind).arrow == ArrowUpRight && ColorFor(kind) == "text-red-600"
  {
    if kind == "debit" || kind == "withdrawal" then "-" else "+"
  }

  /** The direction of money for a stored transaction type. */
  predicate IsInflow(k: TransactionType) {
    k == Credit || k == Commission || k == Topup
  }

  /** On every stored transaction type the icon, the colour and the sign
      agree, and they put the type in exactly one class: inflows are green,
      down-left, '+'; outflows are red, up-right, '-'. */
  lemma DisplayAgreesWithDirection(k: TransactionType)
    ensures IsInflow(k) <==> IconFor(TransactionTypeName(k)).arrow == ArrowDownLeft
    ensures IsInflow(k) <==> ColorFor(TransactionTypeName(k)) == "text-green-600"
    ensures IsInflow(k) <==> SignPrefix(TransactionTypeName(k)) == "+"
    ensures !IsInflow(k) <==> SignPrefix(TransactionTypeName(k)) == "-"
  {
  }

  /** The three tests only agree on the five stored names: a type name
      outside the enumeration is drawn red and up-right yet signed '+'. */
  lemma DisplayDisagreesOffEnumeration()
    ensures IconFor("refund").arrow == ArrowUpRight
    ensures ColorFor("refund") == "text-red-600"
    ensures SignPrefix("refund") == "+"
    ensures forall k :: TransactionTypeName(k) != "refund"
  {
  }

  /** The signed effect of a row on the balance. */
  function SignedDelta(t: WalletTransaction): (d: real)
    // the effect on the balance is the amount with the sign the wallet page shows
    ensures SignPrefix(TransactionTypeName(t.kind)) == "+" ==> d == t.amount
    ensures SignPrefix(TransactionTypeName(t.kind)) == "-" ==> d == -t.amount
  {
    if IsInflow(t.kind) then t.amount else -t.amount
  }

  /** A row records its own balance change consistently with its type. */
  predicate RowConsistent(t: WalletTransaction) {
    t.balanceAfter == t.balanceBefore + SignedDelta(t)
  }

  /** The sum of the signed effects of a sequence of rows. */
  function SumDeltas(txs: seq<WalletTransaction>): real {
    if |txs| == 0 then 0.0 else SumDeltas(txs[..|txs| - 1]) + SignedDelta(txs[|txs| - 1])
  }

  /** `txs` is an unbroken chain of consistent rows leading from the opening
      balance to `closing`: every row starts where the previous one ended. */
  predicate Linked(txs: seq<WalletTransaction>, opening: real, closing: real)
    decreases |txs|
  {
    if |txs| == 0 then opening == closing
    else
      var last := txs[|txs| - 1];
      && RowConsistent(last)
      && last.balanceAfter == closing
      && Linked(txs[..|txs| - 1], opening, last.balanceBefore)
  }

  /** Ledger conservation: along a linked chain the balance moves by exactly
      the signed sum of the rows. */
  lemma {:induction false} LinkedConserves(txs: seq<WalletTransaction>, opening: real, closing: real)
    requires Linked(txs, opening, closing)
    ensures closing - opening == SumDeltas(txs)
    decreases |txs|
  {
    if |txs| > 0 {
      var last := txs[|txs| - 1];
      LinkedConserves(txs[..|txs| - 1], opening, last.balanceBefore);
    }
  }

  /** Appending a consistent row that starts at the current closing balance
      keeps the chain linked, and adds the row's signed effect to the sum. */
  lemma AppendLinked(txs: seq<WalletTransaction>, opening: real, closing: real, t: WalletTransaction)
    requires Linked(txs, opening, closing)
    requires RowConsistent(t) && t.balanceBefore == closing
    ensures Linked(txs + [t], opening, t.balanceAfter)
    ensures SumDeltas(txs + [t]) == SumDeltas(txs) + SignedDelta(t)
  {
    assert (txs + [t])[..|txs|] == txs;
  }

  /** The wallet page shows at most this many rows. */
  const HistoryLimit: nat := 20

  function CreatedAt(t: WalletTransaction): int { t.createdAt }

  /** The user's rows, in table order. */
  function OwnRows(txs: seq<WalletTransaction>, user: UserId): seq<WalletTransaction> {
    Filter(txs, (t: WalletTransaction) => t.userId == user)
  }

  /** The transaction-history query: the user's own rows, newest
      `created_at` first, limited to twenty. */
  function History(txs: seq<WalletTransaction>, user: UserId): (r: seq<WalletTransaction>)
    ensures |r| <= HistoryLimit
    ensures |r| == if |OwnRows(txs, user)| <= HistoryLimit then |OwnRows(txs, user)| else HistoryLimit
    ensures multiset(r) <= multiset(OwnRows(txs, user))
    ensures forall t :: t in r ==> t in txs && t.userId == user
    ensures SortedDesc(r, CreatedAt)
    ensures |r| == HistoryLimit || forall t :: t in txs && t.userId == user ==> t in r
    ensures forall t :: t in txs && t.userId == user && t !in r ==>
              |r| == HistoryLimit && r[HistoryLimit - 1].createdAt >= t.createdAt
  {
    var own := OwnRows(txs, user);
    var sorted := SortDesc(own, CreatedAt);
    assert forall t :: t in sorted <==> t in txs && t.userId == user;
    TakeKeepsLargest(sorted, CreatedAt, HistoryLimit);
    Take(sorted, HistoryLimit)
  }
}

=== FILE: payout.dfy ===
/** The payout page's submit handler: two checks against the balance the
    page shows, then one insert into `payout_requests`. The page neither
    debits the balance nor applies the payout schema. */
module Payout {
  import opened Common
  import opened Schema
  import Text
  import Validation

  const MinimumPayout: real := 10.0
  const InsufficientBalanceMessage := "Insufficient balance"
  const BelowMinimumMessage := "Minimum payout amount is $10"

  datatype PayoutStatus = PayoutPending | PayoutPaid | PayoutRejected

  /** A `payout_requests` row; `details` holds `{ account: ... }`. */
  datatype PayoutRequest = PayoutRequest(userId: UserId, amount: real, payoutMethod: PayoutMethod, account: string, status: PayoutStatus)

  /** What the form holds when it is submitted: the parsed amount, the
      selected method and the account details as typed. */
  datatype PayoutEntry = PayoutEntry(amount: real, payoutMethod: PayoutMethod, accountDetails: string)

  datatype Outcome = Ignored | Refused(message: string) | Submitted | InsertError

  datatype PayoutState = PayoutState(balance: real, requests: seq<PayoutRequest>)

  datatype Submission = Submission(outcome: Outcome, state: PayoutState)

  /** The handler: signed out does nothing; an amount above the balance is
      refused first, then one under the minimum; otherwise a pending request
      is inserted (unless the insert fails). */
  function SubmitPayout(user: Option<UserId>, s: PayoutState, e: PayoutEntry, insertFails: bool): (r: Submission)
    ensures r.state.balance == s.balance
    ensures user.None? ==> r.outcome == Ignored && r.state == s
    ensures user.Some? && e.amount > s.balance ==> r.outcome == Refused(InsufficientBalanceMessage)
    ensures user.Some? && e.amount <= s.balance && e.amount < MinimumPayout ==> r.outcome == Refused(BelowMinimumMessage)
    ensures r.outcome == Submitted <==> user.Some? && MinimumPayout <= e.amount <= s.balance && !insertFails
    ensures r.outcome == Submitted ==>
              r.state.requests == s.requests + [PayoutRequest(user.value, e.amount, e.payoutMethod, e.accountDetails, PayoutPending)]
    ensures r.outcome != Submitted ==> r.state == s
  {
    match user
    case None => Submission(Ignored, s)
    case Some(u) =>
      if e.amount > s.balance then Submission(Refused(InsufficientBalanceMessage), s)
      else if e.amount < MinimumPayout then Submission(Refused(BelowMinimumMessage), s)
      else if insertFails then Submission(InsertError, s)
      else
        var row := PayoutRequest(u, e.amount, e.payoutMethod, e.accountDetails, PayoutPending);
        Submission(Submitted, s.(requests := s.requests + [row]))
  }

  /** Every request row meets the minimum. */
  ghost predicate AllAtLeastMinimum(requests: seq<PayoutRequest>) {
    forall i :: 0 <= i < |requests| ==> requests[i].amount >= MinimumPayout
  }

  /** The handler keeps every request at or above the minimum. */
  lemma SubmitKeepsMinimum(user: Option<UserId>, s: PayoutState, e: PayoutEntry, insertFails: bool)
    requires AllAtLeastMinimum(s.requests)
    ensures AllAtLeastMinimum(SubmitPayout(user, s, e, insertFails).state.requests)
  {
    var r := SubmitPayout(user, s, e, insertFails);
    if r.outcome == Submitted {
      assert forall i :: 0 <= i < |s.requests| ==> r.state.requests[i] == s.requests[i];
    }
  }

  /** Both bounds are inclusive: paying out exactly the minimum, or exactly
      the whole balance, is accepted. */
  lemma BoundariesAccepted(u: UserId, requests: seq<PayoutRequest>, m: PayoutMethod, account: string)
    ensures SubmitPayout(Some(u), PayoutState(10.0, requests), PayoutEntry(10.0, m, account), false).outcome == Submitted
    ensures SubmitPayout(Some(u), PayoutState(250.0, requests), PayoutEntry(250.0, m, account), false).outcome == Submitted
  {
  }

  /** The balance check comes first: an amount both under the minimum and
      above the balance is reported as insufficient balance. */
  lemma BalanceCheckComesFirst(u: UserId, requests: seq<PayoutRequest>, m: PayoutMethod, account: string)
    ensures SubmitPayout(Some(u), PayoutState(3.0, requests), PayoutEntry(5.0, m, account), false).outcome
            == Refused(InsufficientBalanceMessage)
  {
  }

  /** The form values as the payout schema would see them. */
  function AsForm(e: PayoutEntry): (f: Validation.PayoutForm)
    ensures ParsePayoutMethod(f.payoutMethod) == Some(e.payoutMethod)
    ensures f.amount == e.amount && f.accountDetails == e.accountDetails
  {
    Validation.PayoutForm(e.amount, PayoutMethodName(e.payoutMethod), e.accountDetails)
  }

  /** Whatever the payout schema accepts, the handler accepts too when the
      balance covers it. */
  lemma SchemaAcceptedIsSubmitted(u: UserId, s: PayoutState, e: PayoutEntry)
    requires Validation.ParsePayout(AsForm(e)).Some?
    requires e.amount <= s.balance
    ensures SubmitPayout(Some(u), s, e, false).outcome == Submitted
  {
  }

  /** The converse fails: the handler does not check the schema's maximum
      of 10000, so a larger payout the schema rejects is inserted ... */
  lemma AboveSchemaMaximumIsSubmitted(u: UserId, requests: seq<PayoutRequest>, m: PayoutMethod, account: string)
    ensures var big := PayoutEntry(20000.0, m, account);
            && SubmitPayout(Some(u), PayoutState(30000.0, requests), big, false).outcome == Submitted
            && Validation.ParsePayout(AsForm(big)).None?
  {
  }

  /** ... and it does not check that the account details are at least five
      characters long either. */
  lemma ShortAccountIsSubmitted(u: UserId, requests: seq<PayoutRequest>, m: PayoutMethod)
    ensures var short := PayoutEntry(50.0, m, ShortAccount);
            && SubmitPayout(Some(u), PayoutState(100.0, requests), short, false).outcome == Submitted
            && Validation.ParsePayout(AsForm(short)).None?
  {
    ShortAccountLength();
  }

  const ShortAccount: string := "ab"

  lemma ShortAccountLength()
    ensures Text.JsLength(Text.Trim(ShortAccount)) == 2
  {
    Text.TrimOfTrimmed(ShortAccount);
  }
}

=== FILE: providers.dfy ===
/** Provider selection of the purchase engine: the enabled providers ordered
    by priority, highest first, of which the engine always takes the head. */
module Providers {
  import opened Common
  import opened Schema

  function Priority(p: Provider): int { p.priority }

  /** The query `enabled = true order by priority desc`. Rows of equal
      priority keep their table order (the store leaves it unspecified). */
  function EnabledByPriority(ps: seq<Provider>): (r: seq<Provider>)
    ensures SortedDesc(r, Priority)
    ensures forall p :: p in r <==> p in ps && p.enabled
    ensures multiset(r) == multiset(Filter(ps, (p: Provider) => p.enabled))
  {
    SortDesc(Filter(ps, (p: Provider) => p.enabled), Priority)
  }

  /** `providers[0]` of that query, if the query returned any row. */
  function Top(ps: seq<Provider>): (r: Option<Provider>)
    ensures r.None? <==> forall p :: p in ps ==> !p.enabled
    ensures r.Some? ==> r.value in ps && r.value.enabled
    ensures r.Some? ==> forall q :: q in ps && q.enabled ==> q.priority <= r.value.priority
  {
    var sorted := EnabledByPriority(ps);
    if |sorted| == 0 then None
    else
      assert forall q :: q in sorted ==> q.priority <= sorted[0].priority by {
        forall q | q in sorted ensures q.priority <= sorted[0].priority {
          var i :| 0 <= i < |sorted| && sorted[i] == q;
          assert i == 0 || Priority(sorted[0]) >= Priority(sorted[i]);
        }
      }
      Some(sorted[0])
  }

  /** Priority beats table order: of two enabled providers, the one with
      the higher priority is picked wherever it sits. */
  lemma HigherPriorityIsPicked(p: Provider, q: Provider)
    requires p.enabled && q.enabled && q.priority > p.priority
    ensures Top([p, q]) == Some(q) && Top([q, p]) == Some(q)
  {
    TopOfPair(p, q, [p, q]);
    TopOfPair(p, q, [q, p]);
  }

  /** A two-row table holding `p` and `q` in either order. */
  lemma TopOfPair(p: Provider, q: Provider, ps: seq<Provider>)
    requires q.enabled && q.priority > p.priority
    requires |ps| == 2 && ((ps[0] == p && ps[1] == q) || (ps[0] == q && ps[1] == p))
    ensures Top(ps) == Some(q)
  {
    TopIsStrictMaximum(ps, q);
  }

  /** An enabled provider that outranks every other row is the top one. */
  lemma TopIsStrictMaximum(ps: seq<Provider>, q: Provider)
    requires q in ps && q.enabled
    requires forall i :: 0 <= i < |ps| && ps[i] != q ==> ps[i].priority < q.priority
    ensures Top(ps) == Some(q)
  {
  }
}

=== FILE: schema.dfy ===
/** The store's enumerations and the row shapes the core reads and writes,
    after the generated database types of the application. Enumeration
    values travel as strings; each enumeration has its wire name and a
    parser that inverts it. */
module Schema {
  import opened Common

  datatype OrderStatus = Pending | Processing | Completed | Failed | Refunded

  datatype TransactionType = Credit | Debit | Commission | Withdrawal | Topup

  datatype PayoutMethod = Bank | Crypto | MobileMoney

  datatype TaskType =
    | TwitterFollow | InstagramFollow | YoutubeSubscribe
    | TelegramJoin | PlatformSignup | VisitUrl

  datatype AdType = Code | Image

  datatype AdPlacement = Homepage | Dashboard | TasksPage | FreeAccountsPage

  function TransactionTypeName(t: TransactionType): string {
    match t
    case Credit => "credit"
    case Debit => "debit"
    case Commission => "commission"
    case Withdrawal => "withdrawal"
    case Topup => "topup"
  }

  function PayoutMethodName(m: PayoutMethod): string {
    match m
    case Bank => "bank"
    case Crypto => "crypto"
    case MobileMoney => "mobile_money"
  }

  function TaskTypeName(t: TaskType): string {
    match t
    case TwitterFollow => "twitter_follow"
    case InstagramFollow => "instagram_follow"
    case YoutubeSubscribe => "youtube_subscribe"
    case TelegramJoin => "telegram_join"
    case PlatformSignup => "platform_signup"
    case VisitUrl => "visit_url"
  }

  function AdTypeName(t: AdType): string {
    match t
    case Code => "code"
    case Image => "image"
  }

  function AdPlacementName(p: AdPlacement): string {
    match p
    case Homepage => "homepage"
    case Dashboard => "dashboard"
    case TasksPage => "tasks"
    case FreeAccountsPage => "free_accounts"
  }

  /** Enumeration membership of a string, as a `z.enum([...])` check. */
  function ParsePayoutMethod(s: string): (r: Option<PayoutMethod>)
    ensures r.Some? ==> PayoutMethodName(r.value) == s
    ensures r.None? ==> forall m :: PayoutMethodName(m) != s
  {
    if s == "bank" then Some(Bank)
    else if s == "crypto" then Some(Crypto)
    else if s == "mobile_money" then Some(MobileMoney)
    else None
  }

  function ParseTaskType(s: string): (r: Option<TaskType>)
    ensures r.Some? ==> TaskTypeName(r.value) == s
    ensures r.None? ==> forall t :: TaskTypeName(t) != s
  {
    if s == "twitter_follow" then Some(TwitterFollow)
    else if s == "instagram_follow" then Some(InstagramFollow)
    else if s == "youtube_subscribe" then Some(YoutubeSubscribe)
    else if s == "telegram_join" then Some(TelegramJoin)
    else if s == "platform_signup" then Some(PlatformSignup)
    else if s == "visit_url" then Some(VisitUrl)
    else None
  }

  function ParseAdType(s: string): (r: Option<AdType>)
    ensures r.Some? ==> AdTypeName(r.value) == s
    ensures r.None? ==> forall t :: AdTypeName(t) != s
  {
    if s == "code" then Some(Code)
    else if s == "image" then Some(Image)
    else None
  }

  function ParseAdPlacement(s: string): (r: Option<AdPlacement>)
    ensures r.Some? ==> AdPlacementName(r.value) == s
    ensures r.None? ==> forall p :: AdPlacementName(p) != s
  {
    if s == "homepage" then Some(Homepage)
    else if s == "dashboard" then Some(Dashboard)
    else if s == "tasks" then Some(TasksPage)
    else if s == "free_accounts" then Some(FreeAccountsPage)
    else None
  }

  /** Every enumeration value survives the trip through its wire name. */
  lemma ParsersInvertNames(m: PayoutMethod, t: TaskType, a: AdType, p: AdPlacement)
    ensures ParsePayoutMethod(PayoutMethodName(m)) == Some(m)
    ensures ParseTaskType(TaskTypeName(t)) == Some(t)
    ensures ParseAdType(AdTypeName(a)) == Some(a)
    ensures ParseAdPlacement(AdPlacementName(p)) == Some(p)
  {
  }

  /** A row of `wallet_transactions`. Timestamps are abstract ticks. */
  datatype WalletTransaction = WalletTransaction(
    userId: UserId,
    kind: TransactionType,
    amount: real,
    balanceBefore: real,
    balanceAfter: real,
    description: Option<string>,
    reference: Option<string>,
    createdAt: int)

  /** A row of `orders` (the columns this core writes; `commission` and
      `provider_id` are never touched by it). */
  datatype Order = Order(
    id: string,
    userId: UserId,
    serviceId: string,
    amount: real,
    cost: real,
    target: string,
    status: OrderStatus,
    providerRef: Option<string>,
    errorMessage: Option<string>,
    retryCount: nat)

  /** The `request_data` of a provider log: the service and target, plus the
      1-based attempt number on failure rows. */
  datatype LogRequest = LogRequest(serviceId: string, target: string, attempt: Option<nat>)

  /** A row of `provider_logs`; `response` is the provider's reference when
      the call answered. */
  datatype ProviderLog = ProviderLog(
    orderId: string,
    providerId: Option<string>,
    request: LogRequest,
    response: Option<string>,
    statusCode: int,
    errorMessage: Option<string>)

  /** A row of `providers` (credentials and configuration left out). */
  datatype Provider = Provider(id: string, name: string, enabled: bool, priority: int)

  /** A row of `services`: the pricing columns. */
  datatype Service = Service(id: string, name: string, price: real, salePrice: Option<real>)

  /** The agent columns of a `profiles` row; its balance column is kept in
      the wallet state of the engine. */
  datatype AgentTerms = AgentTerms(isAgent: bool, agentRateMultiplier: Option<real>)
}

=== FILE: text.dfy ===
/** String operations of the JavaScript runtime that the validators and the
    free-account page rely on: `trim`, `length` (UTF-16 code units),
    `toLowerCase` and `includes`. */
module Text {

  /** ECMAScript WhiteSpace and LineTerminator code points: what
      `String.prototype.trim` removes. */
  predicate IsJsWhitespace(c: char) {
    || c == '\t' || c == '\n' || c == '\U{000B}' || c == '\U{000C}' || c == '\r' || c == ' '
    || c == '\U{00A0}' || c == '\U{1680}' || ('\U{2000}' <= c <= '\U{200A}')
    || c == '\U{2028}' || c == '\U{2029}' || c == '\U{202F}' || c == '\U{205F}'
    || c == '\U{3000}' || c == '\U{FEFF}'
  }

  predicate AllWhitespace(s: string) {
    forall i :: 0 <= i < |s| ==> IsJsWhitespace(s[i])
  }

  /** The index of the first non-whitespace character at or after `i`, or
      `|s|` when there is none. */
  function SkipLeading(s: string, i: nat): (n: nat)
    requires i <= |s|
    ensures i <= n <= |s|
    ensures forall k :: i <= k < n ==> IsJsWhitespace(s[k])
    ensures n < |s| ==> !IsJsWhitespace(s[n])
    decreases |s| - i
  {
    if i < |s| && IsJsWhitespace(s[i]) then SkipLeading(s, i + 1) else i
  }

  /** The index just past the last non-whitespace character in
      `s[lo..j]`, or `lo` when there is none. */
  function SkipTrailing(s: string, lo: nat, j: nat): (m: nat)
    requires lo <= j <= |s|
    ensures lo <= m <= j
    ensures forall k :: m <= k < j ==> IsJsWhitespace(s[k])
    ensures m > lo ==> !IsJsWhitespace(s[m - 1])
    decreases j
  {
    if j > lo && IsJsWhitespace(s[j - 1]) then SkipTrailing(s, lo, j - 1) else j
  }

  /** `s.trim()`: the string without its leading and trailing whitespace. */
  function Trim(s: string): (r: string)
    ensures |r| <= |s|
    ensures |r| > 0 ==> !IsJsWhitespace(r[0]) && !IsJsWhitespace(r[|r| - 1])
    ensures |r| == 0 <==> AllWhitespace(s)
  {
    var n := SkipLeading(s, 0);
    var m := SkipTrailing(s, n, |s|);
    s[n..m]
  }

  /** `trim` is characterised by what it keeps: whatever whitespace
      surrounds a core that neither starts nor ends with whitespace,
      trimming yields exactly that core. */
  lemma TrimUnique(w1: string, core: string, w2: string)
    requires AllWhitespace(w1) && AllWhitespace(w2)
    requires |core| > 0 ==> !IsJsWhitespace(core[0]) && !IsJsWhitespace(core[|core| - 1])
    ensures Trim(w1 + core + w2) == core
  {
    var x := w1 + core + w2;
    var lo, hi := |w1|, |w1| + |core|;
    assert forall k :: 0 <= k < lo ==> x[k] == w1[k];
    assert forall k :: hi <= k < |x| ==> x[k] == w2[k - hi];
    if |core| > 0 {
      assert x[lo] == core[0] && x[hi - 1] == core[|core| - 1];
      var n := SkipLeading(x, 0);
      assert n == lo;
      var m := SkipTrailing(x, n, |x|);
      assert m == hi;
      assert x[lo..hi] == core;
    }
  }

  lemma WhitespaceConcat(a: string, b: string)
    requires AllWhitespace(a) && AllWhitespace(b)
    ensures AllWhitespace(a + b)
  {
    assert forall i :: |a| <= i < |a + b| ==> (a + b)[i] == b[i - |a|];
  }

  lemma Regroup(a: string, b: string, c: string, d: string, e: string)
    ensures a + (b + c + d) + e == (a + b) + c + (d + e)
  {
  }

  /** Every string is its trimmed form surrounded by whitespace. */
  lemma TrimSplit(s: string) returns (lead: string, trail: string)
    ensures AllWhitespace(lead) && AllWhitespace(trail)
    ensures s == lead + Trim(s) + trail
  {
    var n := SkipLeading(s, 0);
    var m := SkipTrailing(s, n, |s|);
    lead, trail := s[..n], s[m..];
    assert s == s[..n] + s[n..m] + s[m..];
  }

  /** Trimming ignores surrounding whitespace: padding a string on both
      sides never changes what `trim` returns. */
  lemma {:induction false} TrimIgnoresPadding(w1: string, s: string, w2: string)
    requires AllWhitespace(w1) && AllWhitespace(w2)
    ensures Trim(w1 + s + w2) == Trim(s)
  {
    var lead, trail := TrimSplit(s);
    var r := Trim(s);
    WhitespaceConcat(w1, lead);
    WhitespaceConcat(trail, w2);
    Regroup(w1, lead, r, trail, w2);
    TrimUnique(w1 + lead, r, trail + w2);
  }

  /** Trimming is idempotent. */
  lemma {:induction false} TrimIdempotent(s: string)
    ensures Trim(Trim(s)) == Trim(s)
  {
    var r := Trim(s);
    assert r == "" + r + "";
    TrimUnique("", r, "");
  }

  /** A string that neither starts nor ends with whitespace is its own trim. */
  lemma TrimOfTrimmed(s: string)
    requires |s| > 0 ==> !IsJsWhitespace(s[0]) && !IsJsWhitespace(s[|s| - 1])
    ensures Trim(s) == s
  {
    assert s == "" + s + "";
    TrimUnique("", s, "");
  }

  /** The number of UTF-16 code units of a code point. */
  function Utf16Units(c: char): nat {
    if c as int >= 0x1_0000 then 2 else 1
  }

  /** `s.length`: the UTF-16 length, which counts a code point outside the
      Basic Multilingual Plane twice. */
  function JsLength(s: string): (n: nat)
    ensures |s| <= n <= 2 * |s|
    ensures n == |s| <==> forall i :: 0 <= i < |s| ==> s[i] as int < 0x1_0000
  {
    if |s| == 0 then 0 else Utf16Units(s[0]) + JsLength(s[1..])
  }

  /** An emoji is one character but two code units long. */
  lemma EmojiCountsTwice()
    ensures JsLength("\U{1F600}") == 2
  {
  }

  /** The length of one character is its own number of code units. */
  lemma JsLengthChar(c: char)
    ensures JsLength([c]) == Utf16Units(c)
  {
  }

  /** The length of a concatenation is the sum of the lengths, so together
      with `JsLengthChar` the length of every string is the sum of its
      characters' code units. */
  lemma {:induction false} JsLengthAppend(a: string, b: string)
    ensures JsLength(a + b) == JsLength(a) + JsLength(b)
    decreases |a|
  {
    if |a| == 0 {
      assert a + b == b;
    } else {
      assert (a + b)[0] == a[0];
      assert (a + b)[1..] == a[1..] + b;
      JsLengthAppend(a[1..], b);
    }
  }

  function LowerChar(c: char): char {
    if 'A' <= c <= 'Z' then (c as int + 32) as char else c
  }

  /** `s.toLowerCase()` restricted to ASCII letters. */
  function Lower(s: string): (r: string)
    ensures |r| == |s|
    // no ASCII capital is left, and every character either stays or is
    // moved down by the distance between the two ASCII alphabets
    ensures forall i :: 0 <= i < |r| ==> !('A' <= r[i] <= 'Z')
    ensures forall i :: 0 <= i < |s| ==> r[i] == s[i] || r[i] as int == s[i] as int + 32
    ensures forall i :: 0 <= i < |s| && !('A' <= s[i] <= 'Z') ==> r[i] == s[i]
  {
    seq(|s|, i requires 0 <= i < |s| => LowerChar(s[i]))
  }

  /** Lower-casing twice is lower-casing once. */
  lemma LowerIdempotent(s: string)
    ensures Lower(Lower(s)) == Lower(s)
  {
  }

  /** `t` occurs in `s` starting at position `i`. */
  predicate OccursAt(s: string, t: string, i: nat) {
    i + |t| <= |s| && s[i..i + |t|] == t
  }

  /** `s.includes(t)`: `t` occurs in `s` at some position. */
  function Contains(s: string, t: string): (b: bool)
    ensures b <==> exists i: nat :: OccursAt(s, t, i)
    decreases |s|
  {
    if |t| > |s| then false
    else if s[..|t|] == t then
      assert OccursAt(s, t, 0);
      true
    else
      var b := Contains(s[1..], t);
      assert forall i: nat :: OccursAt(s[1..], t, i) <==> OccursAt(s, t, i + 1);
      assert !OccursAt(s, t, 0);
      assert forall i: nat :: OccursAt(s, t, i) && i > 0 ==> OccursAt(s[1..], t, i - 1);
      b
  }

  /** A string cannot contain a string with a character it lacks. */
  lemma MissingCharNotContained(s: string, t: string, k: nat)
    requires k < |t| && t[k] !in s
    ensures !Contains(s, t)
  {
  }
}

=== FILE: validation.dfy ===
/** The form validators of the application, as zod parses them: each
    schema either rejects its input or returns it normalised, with the
    `.trim()` fields trimmed. String bounds count UTF-16 code units after
    trimming; number bounds are inclusive; enumerations are string
    membership. */
module Validation {
  import opened Common
  import opened Schema
  import opened Text

  // ---- URL shape --------------------------------------------------------

  predicate IsAsciiAlpha(c: char) {
    'a' <= c <= 'z' || 'A' <= c <= 'Z'
  }

  predicate IsSchemeChar(c: char) {
    IsAsciiAlpha(c) || '0' <= c <= '9' || c == '+' || c == '-' || c == '.'
  }

  /** A URL scheme: an ASCII letter followed by letters, digits, '+', '-' or '.'. */
  predicate IsScheme(s: string) {
    |s| > 0 && IsAsciiAlpha(s[0]) && forall i :: 1 <= i < |s| ==> IsSchemeChar(s[i])
  }

  /** The schemes whose URLs must name a host. */
  predicate IsSpecialScheme(scheme: string) {
    var l := Lower(scheme);
    l == "http" || l == "https" || l == "ws" || l == "wss" || l == "ftp"
  }

  function DropSlashes(s: string): (r: string)
    ensures |r| <= |s|
    ensures |r| > 0 ==> r[0] != '/' && r[0] != '\\'
  {
    if |s| > 0 && (s[0] == '/' || s[0] == '\\') then DropSlashes(s[1..]) else s
  }

  /** After the slashes there is a non-empty host. */
  predicate HasHost(rest: string) {
    var h := DropSlashes(rest);
    |h| > 0 && h[0] != '?' && h[0] != '#'
  }

  /** What `new URL(s)` accepts, at the level of detail the model keeps: a
      scheme, a colon, and for the special schemes a host. */
  predicate UrlShaped(s: string) {
    exists k :: 0 < k < |s| && s[k] == ':' && IsScheme(s[..k]) && (IsSpecialScheme(s[..k]) ==> HasHost(s[k + 1..]))
  }

  /** `z.string()`, then `.trim()` when `trim` holds, then `.min(lo).max(hi)`. */
  function StringCheck(s: string, trim: bool, lo: nat, hi: nat): Option<string> {
    var v := if trim then Trim(s) else s;
    if lo <= JsLength(v) <= hi then Some(v) else None
  }

  // ---- Task schema (admin task form) -------------------------------------

  datatype TaskForm = TaskForm(title: string, description: string, link: string, reward: real, kind: string, status: bool)

  function ParseTask(t: TaskForm): (r: Option<TaskForm>)
    ensures r.Some? <==>
              && 1 <= JsLength(Trim(t.title)) <= 200
              && 1 <= JsLength(Trim(t.description)) <= 1000
              && UrlShaped(Trim(t.link)) && JsLength(Trim(t.link)) <= 500
              && 0.01 <= t.reward <= 10000.0
              && ParseTaskType(t.kind).Some?
    ensures r.Some? ==>
              r.value == t.(title := Trim(t.title), description := Trim(t.description), link := Trim(t.link))
  {
    var title := StringCheck(t.title, true, 1, 200);
    var description := StringCheck(t.description, true, 1, 1000);
    var link := StringCheck(t.link, true, 0, 500);
    if && title.Some? && description.Some? && link.Some? && UrlShaped(link.value)
       && 0.01 <= t.reward <= 10000.0 && ParseTaskType(t.kind).Some?
    then Some(t.(title := title.value, description := description.value, link := link.value))
    else None
  }

  /** Parsing an accepted task again accepts it unchanged. */
  lemma ParseTaskIdempotent(t: TaskForm)
    ensures ParseTask(t).Some? ==> ParseTask(ParseTask(t).value) == ParseTask(t)
  {
    TrimIdempotent(t.title);
    TrimIdempotent(t.description);
    TrimIdempotent(t.link);
  }

  /** Whitespace around each trimmed field, chosen independently per field,
      never changes the verdict or the output. */
  lemma ParseTaskIgnoresPadding(t: TaskForm, w1: string, w2: string, w3: string, w4: string, w5: string, w6: string)
    requires AllWhitespace(w1) && AllWhitespace(w2) && AllWhitespace(w3)
    requires AllWhitespace(w4) && AllWhitespace(w5) && AllWhitespace(w6)
    ensures ParseTask(t.(title := w1 + t.title + w2,
                         description := w3 + t.description + w4,
                         link := w5 + t.link + w6)) == ParseTask(t)
  {
    TrimIgnoresPadding(w1, t.title, w2);
    TrimIgnoresPadding(w3, t.description, w4);
    TrimIgnoresPadding(w5, t.link, w6);
  }

  const ScriptUrl: string := "javascript:alert(1)"

  /** A script URL has the shape of a URL: a scheme that is not special,
      then a colon. */
  lemma ScriptUrlIsUrlShaped()
    ensures UrlShaped(ScriptUrl)
  {
    var scheme := ScriptUrl[..10];
    assert scheme == "javascript";
    assert IsScheme(scheme);
    assert Lower(scheme) == scheme;
    assert !IsSpecialScheme(scheme);
    assert ScriptUrl[10] == ':';
  }

  lemma ScriptUrlIsTrimmed()
    ensures Trim(ScriptUrl) == ScriptUrl
  {
    TrimOfTrimmed(ScriptUrl);
  }

  /** zod's URL check only asks for a scheme: a script URL is a valid task
      link wherever a link is accepted. */
  lemma ScriptLinkIsAccepted(t: TaskForm)
    ensures ParseTask(t).Some? ==> ParseTask(t.(link := ScriptUrl)).Some?
  {
    ScriptUrlIsUrlShaped();
    ScriptUrlIsTrimmed();
    assert |ScriptUrl| == 19;
    AnyUrlShapedLinkIsAccepted(t, ScriptUrl);
  }

  /** The link is judged by its trimmed shape and length alone. */
  lemma AnyUrlShapedLinkIsAccepted(t: TaskForm, link: string)
    ensures ParseTask(t).Some? && UrlShaped(Trim(link)) && JsLength(Trim(link)) <= 500 ==>
              ParseTask(t.(link := link)).Some?
  {
  }

  // ---- Payout schema --------------------------------------------------------

  datatype PayoutForm = PayoutForm(amount: real, payoutMethod: string, accountDetails: string)

  function ParsePayout(p: PayoutForm): (r: Option<PayoutForm>)
    ensures r.Some? <==>
              && 10.0 <= p.amount <= 10000.0
              && ParsePayoutMethod(p.payoutMethod).Some?
              && 5 <= JsLength(Trim(p.accountDetails)) <= 500
    ensures r.Some? ==> r.value == p.(accountDetails := Trim(p.accountDetails))
  {
    var details := StringCheck(p.accountDetails, true, 5, 500);
    if 10.0 <= p.amount <= 10000.0 && ParsePayoutMethod(p.payoutMethod).Some? && details.Some?
    then Some(p.(accountDetails := details.value))
    else None
  }

  lemma ParsePayoutIdempotent(p: PayoutForm)
    requires ParsePayout(p).Some?
    ensures ParsePayout(ParsePayout(p).value) == ParsePayout(p)
  {
    TrimIdempotent(p.accountDetails);
  }

  lemma ParsePayoutIgnoresPadding(p: PayoutForm, w1: string, w2: string)
    requires AllWhitespace(w1) && AllWhitespace(w2)
    ensures ParsePayout(p.(accountDetails := w1 + p.accountDetails + w2)) == ParsePayout(p)
  {
    TrimIgnoresPadding(w1, p.accountDetails, w2);
  }

  // ---- Free account schema -------------------------------------------------

  datatype FreeAccountForm = FreeAccountForm(platformName: string, username: string, password: string)

  function ParseFreeAccount(f: FreeAccountForm): (r: Option<FreeAccountForm>)
    ensures r.Some? <==>
              && 1 <= JsLength(Trim(f.platformName)) <= 100
              && 1 <= JsLength(Trim(f.username)) <= 100
              && 8 <= JsLength(f.password) <= 100
    ensures r.Some? ==> r.value == f.(platformName := Trim(f.platformName), username := Trim(f.username))
  {
    var platform := StringCheck(f.platformName, true, 1, 100);
    var username := StringCheck(f.username, true, 1, 100);
    var password := StringCheck(f.password, false, 8, 100);
    if platform.Some? && username.Some? && password.Some?
    then Some(FreeAccountForm(platform.value, username.value, password.value))
    else None
  }

  lemma ParseFreeAccountIdempotent(f: FreeAccountForm)
    requires ParseFreeAccount(f).Some?
    ensures ParseFreeAccount(ParseFreeAccount(f).value) == ParseFreeAccount(f)
  {
    TrimIdempotent(f.platformName);
    TrimIdempotent(f.username);
  }

  /** Padding the platform name and username changes nothing. */
  lemma ParseFreeAccountIgnoresPadding(f: FreeAccountForm, w1: string, w2: string, w3: string, w4: string)
    requires AllWhitespace(w1) && AllWhitespace(w2) && AllWhitespace(w3) && AllWhitespace(w4)
    ensures ParseFreeAccount(f.(platformName := w1 + f.platformName + w2,
                                username := w3 + f.username + w4)) == ParseFreeAccount(f)
  {
    TrimIgnoresPadding(w1, f.platformName, w2);
    TrimIgnoresPadding(w3, f.username, w4);
  }

  /** Four letters padded with two spaces on each side. */
  const PaddedPassword: string := "  abcd  "

  /** The password is not trimmed: its surrounding spaces count towards the
      minimum of eight and are kept, so a four-letter password padded with
      four spaces is accepted as it stands. */
  lemma PaddedPasswordIsKept(f: FreeAccountForm)
    requires ParseFreeAccount(f).Some?
    ensures var r := ParseFreeAccount(f.(password := PaddedPassword));
            r.Some? && r.value.password == PaddedPassword
  {
    assert |PaddedPassword| == 8;
    var g := f.(password := PaddedPassword);
    assert g.platformName == f.platformName && g.username == f.username;
  }

  /** The same four letters without padding are too short for the minimum
      of eight. */
  lemma ShortPasswordIsRejected(f: FreeAccountForm)
    ensures ParseFreeAccount(f.(password := "abcd")).None?
  {
    assert JsLength("abcd") == 4;
  }

  // ---- Ad schema -------------------------------------------------------------

  datatype AdForm = AdForm(adName: string, adType: string, adContent: string, placement: seq<string>)

  function ParseAd(a: AdForm): (r: Option<AdForm>)
    ensures r.Some? <==>
              && 1 <= JsLength(Trim(a.adName)) <= 200
              && ParseAdType(a.adType).Some?
              && 1 <= JsLength(Trim(a.adContent)) <= 5000
              && |a.placement| >= 1
              && forall i :: 0 <= i < |a.placement| ==> ParseAdPlacement(a.placement[i]).Some?
    ensures r.Some? ==> r.value == a.(adName := Trim(a.adName), adContent := Trim(a.adContent))
  {
    var name := StringCheck(a.adName, true, 1, 200);
    var content := StringCheck(a.adContent, true, 1, 5000);
    if && name.Some? && ParseAdType(a.adType).Some? && content.Some?
       && |a.placement| >= 1 && (forall p :: p in a.placement ==> ParseAdPlacement(p).Some?)
    then Some(a.(adName := name.value, adContent := content.value))
    else None
  }

  lemma ParseAdIdempotent(a: AdForm)
    requires ParseAd(a).Some?
    ensures ParseAd(ParseAd(a).value) == ParseAd(a)
  {
    TrimIdempotent(a.adName);
    TrimIdempotent(a.adContent);
  }

  lemma ParseAdIgnoresPadding(a: AdForm, w1: string, w2: string, w3: string, w4: string)
    requires AllWhitespace(w1) && AllWhitespace(w2) && AllWhitespace(w3) && AllWhitespace(w4)
    ensures ParseAd(a.(adName := w1 + a.adName + w2, adContent := w3 + a.adContent + w4)) == ParseAd(a)
  {
    TrimIgnoresPadding(w1, a.adName, w2);
    TrimIgnoresPadding(w3, a.adContent, w4);
  }

  // ---- Task submission schema -------------------------------------------

  datatype SubmissionForm = SubmissionForm(usernameProof: Option<string>, proofImage: Option<string>)

  /** Both fields are optional; the refinement then asks for a truthy
      (non-empty) trimmed username proof or a non-empty image. */
  function ParseSubmission(f: SubmissionForm): (r: Option<SubmissionForm>)
    ensures r.Some? <==>
              && (f.usernameProof.Some? ==> JsLength(Trim(f.usernameProof.value)) <= 100)
              && ((f.usernameProof.Some? && Trim(f.usernameProof.value) != "")
                  || (f.proofImage.Some? && f.proofImage.value != ""))
    ensures r.Some? ==>
              r.value.proofImage == f.proofImage
              && (f.usernameProof.Some? ==> r.value.usernameProof == Some(Trim(f.usernameProof.value)))
              && (f.usernameProof.None? ==> r.value.usernameProof.None?)
  {
    var proof := match f.usernameProof
      case None => Some(None)
      case Some(u) => match StringCheck(u, true, 0, 100) case Some(v) => Some(Some(v)) case None => None;
    if proof.None? then None
    else
      var output := SubmissionForm(proof.value, f.proofImage);
      var truthy := (output.usernameProof.Some? && output.usernameProof.value != "")
                    || (output.proofImage.Some? && output.proofImage.value != "");
      if truthy then Some(output) else None
  }

  lemma ParseSubmissionIdempotent(f: SubmissionForm)
    requires ParseSubmission(f).Some?
    ensures ParseSubmission(ParseSubmission(f).value) == ParseSubmission(f)
  {
    if f.usernameProof.Some? {
      TrimIdempotent(f.usernameProof.value);
    }
  }

  lemma ParseSubmissionIgnoresPadding(f: SubmissionForm, w1: string, w2: string)
    requires f.usernameProof.Some?
    requires AllWhitespace(w1) && AllWhitespace(w2)
    ensures ParseSubmission(f.(usernameProof := Some(w1 + f.usernameProof.value + w2))) == ParseSubmission(f)
  {
    TrimIgnoresPadding(w1, f.usernameProof.value, w2);
  }

  /** A username proof of spaces is no proof: alone it is rejected, while an
      image makes the submission acceptable. */
  lemma BlankUsernameProofIsNoProof()
    ensures ParseSubmission(SubmissionForm(Some("   "), None)).None?
    ensures ParseSubmission(SubmissionForm(Some("   "), Some("proof.png"))).Some?
  {
    assert AllWhitespace("   ");
  }
}

=== FILE: vtu_order.dfy ===
/** The VTU purchase-and-fulfilment request handler as one pure step over
    the purchasing user's wallet state: price the service, check and debit
    the balance, log the debit, create the order, try the top-priority
    provider up to three times with one provider log per attempt, and close
    the order with the atomic status update.

    The provider call is an oracle: `outcomes[a]` is what the provider
    answers on attempt `a`. The store's answers that the handler checks
    (service and profile lookups, the balance update, the order insert) are
    inputs too, and so is whether the wallet-transaction insert, whose error
    the handler ignores, took effect. */
module VtuOrder {
  import opened Common
  import opened Schema
  import Ledger
  import Providers

  /** The retry loop runs at most this many attempts. */
  const MaxAttempts: nat := 3

  const NoProvidersMessage: string := "No providers available"

  /** What the provider answers to one call: a reference, or an error. */
  datatype Outcome = Success(reference: string) | Failure(message: string)

  /** The result of one loop iteration. */
  datatype AttemptResult =
    | Fulfilled(provider: Provider, reference: string)
    | AttemptFailed(message: string)

  /** What every iteration of the retry loop sees. The provider query is
      re-run on each iteration, but the table does not change within a
      request, so `top` is its head on every iteration. */
  datatype Attempts = Attempts(
    orderId: string,
    serviceId: string,
    target: string,
    top: Option<Provider>,
    outcomes: seq<Outcome>)

  /** Attempt number `a` (0-based): with no enabled provider it fails with
      "No providers available" without calling anyone; otherwise it calls
      the top provider and takes its answer. */
  function AttemptAt(ctx: Attempts, a: nat): (r: AttemptResult)
    requires a < MaxAttempts <= |ctx.outcomes|
    // an attempt is fulfilled exactly when there is a provider and it answers with a reference
    ensures r.Fulfilled? <==> ctx.top.Some? && ctx.outcomes[a].Success?
    ensures r.Fulfilled? ==> r.provider == ctx.top.value && r.reference == ctx.outcomes[a].reference
    ensures r.AttemptFailed? ==>
              r.message == if ctx.top.None? then NoProvidersMessage else ctx.outcomes[a].message
  {
    match ctx.top
    case None => AttemptFailed(NoProvidersMessage)
    case Some(p) =>
      match ctx.outcomes[a]
      case Success(reference) => Fulfilled(p, reference)
      case Failure(message) => AttemptFailed(message)
  }

  /** The provider-log row written by attempt `a`: the provider's id and
      status 200 on success; no provider, status 0, the 1-based attempt
      number and the error text on failure. */
  function LogFor(ctx: Attempts, a: nat): (r: ProviderLog)
    requires a < MaxAttempts <= |ctx.outcomes|
    ensures r.orderId == ctx.orderId && r.request.serviceId == ctx.serviceId && r.request.target == ctx.target
    // a row names a provider exactly when the attempt succeeded, and then carries status 200
    ensures r.providerId.Some? <==> AttemptAt(ctx, a).Fulfilled?
    ensures r.statusCode == (if r.providerId.Some? then 200 else 0)
    ensures r.providerId.Some? ==>
              && r.providerId == Some(ctx.top.value.id) && r.response == Some(ctx.outcomes[a].reference)
              && r.request.attempt.None? && r.errorMessage.None?
    ensures r.providerId.None? ==>
              && r.request.attempt == Some(a + 1) && r.response.None?
              && r.errorMessage == Some(AttemptAt(ctx, a).message)
  {
    match AttemptAt(ctx, a)
    case Fulfilled(p, reference) =>
      ProviderLog(ctx.orderId, Some(p.id), LogRequest(ctx.serviceId, ctx.target, None), Some(reference), 200, None)
    case AttemptFailed(message) =>
      ProviderLog(ctx.orderId, None, LogRequest(ctx.serviceId, ctx.target, Some(a + 1)), None, 0, Some(message))
  }

  /** The first successful attempt at or after `a`, if there is one. */
  function FirstFulfilled(ctx: Attempts, a: nat): (r: Option<nat>)
    requires a <= MaxAttempts <= |ctx.outcomes|
    decreases MaxAttempts - a
    ensures r.Some? ==> a <= r.value < MaxAttempts && AttemptAt(ctx, r.value).Fulfilled?
    ensures r.Some? ==> forall i :: a <= i < r.value ==> AttemptAt(ctx, i).AttemptFailed?
    ensures r.None? ==> forall i :: a <= i < MaxAttempts ==> AttemptAt(ctx, i).AttemptFailed?
  {
    if a == MaxAttempts then None
    else if AttemptAt(ctx, a).Fulfilled? then Some(a)
    else FirstFulfilled(ctx, a + 1)
  }

  /** How many attempts the loop makes from `a` on: up to and including the
      first success, or all that remain. */
  function AttemptsMade(ctx: Attempts, a: nat): (n: nat)
    requires a <= MaxAttempts <= |ctx.outcomes|
    ensures a < MaxAttempts ==> 1 <= n
    ensures n <= MaxAttempts - a
  {
    match FirstFulfilled(ctx, a)
    case Some(j) => j - a + 1
    case None => MaxAttempts - a
  }

  /** The log rows the loop writes from attempt `a` on: one per attempt,
      up to and including the first success. */
  function LoopLogs(ctx: Attempts, a: nat): (ls: seq<ProviderLog>)
    requires a <= MaxAttempts <= |ctx.outcomes|
    decreases MaxAttempts - a
    ensures |ls| == AttemptsMade(ctx, a)
  {
    if a == MaxAttempts then []
    else if AttemptAt(ctx, a).Fulfilled? then [LogFor(ctx, a)]
    else [LogFor(ctx, a)] + LoopLogs(ctx, a + 1)
  }

  /** Row `k` of the loop's logs is the row of attempt `a + k`. */
  lemma {:induction false} LoopLogsAt(ctx: Attempts, a: nat, k: nat)
    requires a <= MaxAttempts <= |ctx.outcomes|
    requires k < AttemptsMade(ctx, a)
    decreases MaxAttempts - a
    ensures a + k < MaxAttempts && LoopLogs(ctx, a)[k] == LogFor(ctx, a + k)
  {
    assert AttemptsMade(ctx, a) > 0 && a < MaxAttempts;
    var ls := LoopLogs(ctx, a);
    if k > 0 {
      assert AttemptAt(ctx, a).AttemptFailed?;
      assert ls == [LogFor(ctx, a)] + LoopLogs(ctx, a + 1);
      LoopLogsAt(ctx, a + 1, k - 1);
      assert ls[k] == LoopLogs(ctx, a + 1)[k - 1];
    } else {
      assert ls[0] == LogFor(ctx, a);
    }
  }

  /** The number of log rows without a provider (the failure rows). */
  function NullProviderRows(logs: seq<ProviderLog>): nat {
    if |logs| == 0 then 0
    else (if logs[0].providerId.None? then 1 else 0) + NullProviderRows(logs[1..])
  }

  lemma {:induction false} NullProviderRowsAppend(xs: seq<ProviderLog>, ys: seq<ProviderLog>)
    ensures NullProviderRows(xs + ys) == NullProviderRows(xs) + NullProviderRows(ys)
  {
    if |xs| > 0 {
      assert (xs + ys)[1..] == xs[1..] + ys;
      NullProviderRowsAppend(xs[1..], ys);
    } else {
      assert xs + ys == ys;
    }
  }

  /** Every row the loop writes names no provider, except a successful
      attempt's. */
  lemma {:induction false} LoopLogsNullRows(ctx: Attempts, a: nat)
    requires a <= MaxAttempts <= |ctx.outcomes|
    decreases MaxAttempts - a
    ensures NullProviderRows(LoopLogs(ctx, a)) ==
              AttemptsMade(ctx, a) - (if FirstFulfilled(ctx, a).Some? then 1 else 0)
  {
    if a < MaxAttempts {
      var ls := LoopLogs(ctx, a);
      var rest := if AttemptAt(ctx, a).Fulfilled? then [] else LoopLogs(ctx, a + 1);
      assert ls == [LogFor(ctx, a)] + rest;
      assert ls[1..] == rest;
      assert NullProviderRows(ls) == (if LogFor(ctx, a).providerId.None? then 1 else 0) + NullProviderRows(rest);
      if AttemptAt(ctx, a).AttemptFailed? {
        LoopLogsNullRows(ctx, a + 1);
      } else {
        assert FirstFulfilled(ctx, a) == Some(a);
      }
    }
  }

  /** The atomic status update: writes the status together with whichever
      of provider reference and error message it is given. */
  function ProcessOrder(o: Order, status: OrderStatus, providerRef: Option<string>, errorMessage: Option<string>): (r: Order)
    ensures r.status == status
    // a column it is not given keeps its value
    ensures providerRef.None? ==> r.providerRef == o.providerRef
    ensures errorMessage.None? ==> r.errorMessage == o.errorMessage
    ensures providerRef.Some? ==> r.providerRef == providerRef
    ensures errorMessage.Some? ==> r.errorMessage == errorMessage
    // and no other column changes
    ensures r.(status := o.status, providerRef := o.providerRef, errorMessage := o.errorMessage) == o
  {
    o.(status := status,
       providerRef := if providerRef.Some? then providerRef else o.providerRef,
       errorMessage := if errorMessage.Some? then errorMessage else o.errorMessage)
  }

  datatype LoopResult = LoopResult(order: Order, logs: seq<ProviderLog>, lastError: string, success: bool)

  /** The retry loop from attempt `a` on. A success logs, completes the
      order with the provider's reference and leaves the loop; a failure
      logs, sets `retry_count` to the 1-based attempt number and remembers
      the error. */
  function RunAttempts(ctx: Attempts, a: nat, order: Order, logs: seq<ProviderLog>, lastError: string): (r: LoopResult)
    requires a <= MaxAttempts <= |ctx.outcomes|
    decreases MaxAttempts - a
    ensures r.success <==> FirstFulfilled(ctx, a).Some?
    ensures r.logs == logs + LoopLogs(ctx, a)
  {
    if a == MaxAttempts then LoopResult(order, logs, lastError, false)
    else
      var log := LogFor(ctx, a);
      match AttemptAt(ctx, a)
      case Fulfilled(_, reference) =>
        LoopResult(ProcessOrder(order, Completed, Some(reference), None), logs + [log], lastError, true)
      case AttemptFailed(message) =>
        var r := RunAttempts(ctx, a + 1, order.(retryCount := a + 1), logs + [log], message);
        assert logs + [log] + LoopLogs(ctx, a + 1) == logs + ([log] + LoopLogs(ctx, a + 1));
        r
  }

  /** A success completes the order with the provider's reference and
      `retry_count` left at the last failed attempt's number; exhaustion
      leaves `retry_count` at three and remembers the last error. */
  lemma {:induction false} RunAttemptsOrder(ctx: Attempts, a: nat, order: Order, logs: seq<ProviderLog>, lastError: string)
    requires a <= MaxAttempts <= |ctx.outcomes|
    decreases MaxAttempts - a
    ensures var r := RunAttempts(ctx, a, order, logs, lastError);
            && (r.success ==>
                  var j := FirstFulfilled(ctx, a).value;
                  r.order == order.(status := Completed,
                                    providerRef := Some(AttemptAt(ctx, j).reference),
                                    retryCount := if j == a then order.retryCount else j))
            && (!r.success && a < MaxAttempts ==>
                  r.order == order.(retryCount := MaxAttempts)
                  && r.lastError == AttemptAt(ctx, MaxAttempts - 1).message)
            && (!r.success && a == MaxAttempts ==> r.order == order && r.lastError == lastError)
  {
    if a < MaxAttempts && AttemptAt(ctx, a).AttemptFailed? {
      RunAttemptsOrder(ctx, a + 1, order.(retryCount := a + 1), logs + [LogFor(ctx, a)], AttemptAt(ctx, a).message);
    }
  }

  /** The HTTP reply: the order on success (200), the last error after
      exhausting the attempts (500), or the message of any error raised
      before the order exists (400). */
  datatype Reply = Ok(order: Order) | OrderFailed(details: string) | BadRequest(message: string)

  function StatusCode(r: Reply): (code: int)
    ensures code == 200 || code == 400 || code == 500
    ensures code == 200 <==> r.Ok?
    ensures code == 500 <==> r.OrderFailed?
  {
    match r
    case Ok(_) => 200
    case OrderFailed(_) => 500
    case BadRequest(_) => 400
  }

  datatype Fulfilment = Fulfilment(order: Order, logs: seq<ProviderLog>, reply: Reply)

  /** Everything after the order exists: the retry loop, then the terminal
      status update. A success completes the order and replies 200 with the
      order as it was inserted; exhaustion marks it failed with the last
      error and replies 500. No wallet credit is issued on either path. */
  function Fulfil(ctx: Attempts, created: Order, logs: seq<ProviderLog>): (f: Fulfilment)
    requires MaxAttempts <= |ctx.outcomes|
    ensures f.order.status == Completed || f.order.status == Failed
    ensures f.reply.Ok? <==> f.order.status == Completed
    ensures f.reply.Ok? <==> FirstFulfilled(ctx, 0).Some?
    ensures f.reply.Ok? ==> f.reply.order == created
    ensures f.order.status == Completed ==>
              var j := FirstFulfilled(ctx, 0).value;
              && ctx.top.Some? && AttemptAt(ctx, j).provider == ctx.top.value
              && f.order == created.(status := Completed,
                                     providerRef := Some(AttemptAt(ctx, j).reference),
                                     retryCount := if j == 0 then created.retryCount else j)
    ensures f.order.status == Failed ==>
              var message := AttemptAt(ctx, MaxAttempts - 1).message;
              && f.order == created.(status := Failed, errorMessage := Some(message), retryCount := MaxAttempts)
              && f.reply == OrderFailed(message)
    ensures f.logs == logs + LoopLogs(ctx, 0)
  {
    RunAttemptsOrder(ctx, 0, created, logs, "");
    var loop := RunAttempts(ctx, 0, created, logs, "");
    if loop.success then
      Fulfilment(loop.order, loop.logs, Ok(created))
    else
      Fulfilment(ProcessOrder(loop.order, Failed, None, Some(loop.lastError)), loop.logs, OrderFailed(loop.lastError))
  }

  /** Which of the store's writes fail. */
  datatype Faults = Faults(balanceWriteFails: bool, transactionInsertFails: bool, orderInsertFails: bool)

  datatype Request = Request(user: Option<UserId>, serviceId: string, target: string)

  /** The per-request inputs besides the request body: the store's answers
      to the lookups, which writes fail, the id the store gives the new
      order, the clock, the provider table and the provider's answers. */
  datatype Env = Env(
    service: Option<Service>,
    profile: Option<AgentTerms>,
    faults: Faults,
    orderId: string,
    now: int,
    providers: seq<Provider>,
    outcomes: seq<Outcome>)

  /** The purchasing user's wallet: the profile balance, their wallet
      transactions, their orders, and the provider logs. */
  datatype State = State(
    balance: real,
    transactions: seq<WalletTransaction>,
    orders: seq<Order>,
    logs: seq<ProviderLog>)

  datatype Step = Step(state: State, reply: Reply)

  /** The multiplier an agent pays: the profile's rate unless it is null or zero. */
  function AgentMultiplier(terms: AgentTerms): (m: real)
    // the rate never zeroes a price: it is the stored rate or one
    ensures m != 0.0
    ensures m == 1.0 || terms.agentRateMultiplier == Some(m)
  {
    if terms.agentRateMultiplier.Some? && terms.agentRateMultiplier.value != 0.0
    then terms.agentRateMultiplier.value
    else 1.0
  }

  /** The base price: the sale price unless it is null or zero. */
  function BasePrice(s: Service): (b: real)
    // a service is free only when its list price is zero
    ensures b == s.price || s.salePrice == Some(b)
    ensures b == 0.0 ==> s.price == 0.0
  {
    if s.salePrice.Some? && s.salePrice.value != 0.0 then s.salePrice.value else s.price
  }

  /** The price a user pays for a service. */
  function Cost(s: Service, terms: AgentTerms): (c: real)
    // agents and regular users alike get a service for nothing exactly
    // when its base price is zero
    ensures c == 0.0 <==> BasePrice(s) == 0.0
  {
    if terms.isAgent then BasePrice(s) * AgentMultiplier(terms) else BasePrice(s)
  }

  /** `sale_price || price`: a zero sale price counts as no sale price,
      and any other sale price replaces the list price whatever it is. */
  lemma SalePriceTruthiness(s: Service, p: real)
    ensures BasePrice(s.(salePrice := Some(0.0))) == BasePrice(s.(salePrice := None)) == s.price
    ensures p != 0.0 ==> BasePrice(s.(salePrice := Some(p))) == p
  {
  }

  /** `agent_rate_multiplier || 1.0`: a zero rate counts as no rate, and any
      other rate is taken as it is, negative or above one included. */
  lemma RateTruthiness(t: AgentTerms, m: real)
    ensures AgentMultiplier(t.(agentRateMultiplier := Some(0.0))) == AgentMultiplier(t.(agentRateMultiplier := None)) == 1.0
    ensures m != 0.0 ==> AgentMultiplier(t.(agentRateMultiplier := Some(m))) == m
  {
  }

  /** A regular user's cost does not depend on the rate stored in the profile. */
  lemma RegularCostIgnoresRate(s: Service, t: AgentTerms, m: Option<real>)
    ensures !t.isAgent ==> Cost(s, t) == Cost(s, t.(agentRateMultiplier := m)) == BasePrice(s)
  {
  }

  /** An agent pays the regular cost scaled by the rate; an agent whose rate
      is missing or zero pays the regular cost, not nothing. */
  lemma AgentCostScalesRegularCost(s: Service, t: AgentTerms)
    ensures t.isAgent ==> Cost(s, t) == Cost(s, t.(isAgent := false)) * AgentMultiplier(t)
    ensures t.isAgent && (t.agentRateMultiplier.None? || t.agentRateMultiplier == Some(0.0)) ==>
              Cost(s, t) == Cost(s, t.(isAgent := false))
  {
  }

  /** An agent whose rate is in (0, 1] never pays more than a regular user
      for a service of non-negative price. */
  lemma AgentRateIsADiscount(s: Service, terms: AgentTerms)
    requires terms.isAgent && terms.agentRateMultiplier.Some?
    requires 0.0 < terms.agentRateMultiplier.value <= 1.0
    requires BasePrice(s) >= 0.0
    ensures 0.0 <= Cost(s, terms) <= Cost(s, terms.(isAgent := false)) == BasePrice(s)
  {
    var b, m := BasePrice(s), terms.agentRateMultiplier.value;
    assert b - b * m == b * (1.0 - m);
    assert b * (1.0 - m) >= 0.0;
  }

  /** The rate is not clamped: a rate above one makes an agent pay more. */
  lemma AgentRateAboveOneIsASurcharge()
    ensures var s := Service("svc", "Data 1GB", 10.0, None);
            Cost(s, AgentTerms(true, Some(1.5))) == 15.0 > Cost(s, AgentTerms(false, None))
  {
  }

  /** The user, service and profile were all found. */
  predicate Found(req: Request, env: Env) {
    req.user.Some? && env.service.Some? && env.profile.Some?
  }

  function PurchaseCost(env: Env): real
    requires env.service.Some? && env.profile.Some?
  {
    Cost(env.service.value, env.profile.value)
  }

  /** The balance passed the check and the new balance was written. */
  predicate Charged(req: Request, env: Env, s: State) {
    Found(req, env) && s.balance >= PurchaseCost(env) && !env.faults.balanceWriteFails
  }

  /** The retry loop's view of a request whose order was created. */
  function AttemptsOf(req: Request, env: Env): Attempts {
    Attempts(env.orderId, req.serviceId, req.target, Providers.Top(env.providers), env.outcomes)
  }

  /** The wallet once the balance check passed and the new balance was
      written: debited by the cost, with the debit row logged unless its
      insert failed. */
  function DebitWallet(req: Request, env: Env, s: State): (d: State)
    requires Charged(req, env, s)
    ensures var cost := PurchaseCost(env);
            && d.balance == s.balance - cost
            && |d.transactions| == |s.transactions| + (if env.faults.transactionInsertFails then 0 else 1)
            && d.transactions[..|s.transactions|] == s.transactions
            && (!env.faults.transactionInsertFails ==>
                  var t := d.transactions[|s.transactions|];
                  && t.userId == req.user.value && t.kind == Debit && t.amount == cost
                  && t.balanceBefore == s.balance && t.balanceAfter == s.balance - cost)
    ensures d.orders == s.orders && d.logs == s.logs
  {
    var cost := PurchaseCost(env);
    var debit := WalletTransaction(req.user.value, Debit, cost, s.balance, s.balance - cost,
                                   Some("Purchase: " + env.service.value.name), None, env.now);
    var txs := if env.faults.transactionInsertFails then s.transactions else s.transactions + [debit];
    assert txs[..|s.transactions|] == s.transactions;
    s.(balance := s.balance - cost, transactions := txs)
  }

  /** Inserting the order (status processing) and fulfilling it. */
  function PlaceOrder(req: Request, env: Env, d: State): (r: Step)
    requires |env.outcomes| >= MaxAttempts
    requires Found(req, env)
    ensures r.state.balance == d.balance && r.state.transactions == d.transactions
    ensures |r.state.orders| == |d.orders| + 1
    ensures r.state.orders[..|d.orders|] == d.orders
    ensures var o := r.state.orders[|d.orders|];
            var svc := env.service.value;
            && o.id == env.orderId && o.userId == req.user.value && o.serviceId == svc.id
            && o.amount == svc.price && o.cost == PurchaseCost(env) && o.target == req.target
            && (o.status == Completed || o.status == Failed)
            && (r.reply.Ok? <==> o.status == Completed)
            && !r.reply.BadRequest?
            && (r.reply.Ok? ==> r.reply.order == o.(status := Processing, providerRef := None, retryCount := 0))
            && (o.status == Completed ==> o.providerRef.Some? && o.errorMessage.None?)
            && (o.status == Failed ==>
                  o.providerRef.None? && o.retryCount == MaxAttempts && o.errorMessage.Some?
                  && r.reply == OrderFailed(o.errorMessage.value))
            && o.retryCount <= MaxAttempts
            && NullProviderRows(r.state.logs) == NullProviderRows(d.logs) + o.retryCount
    ensures r.state.logs == d.logs + LoopLogs(AttemptsOf(req, env), 0)
    ensures 1 <= |r.state.logs| - |d.logs| <= MaxAttempts
  {
    var svc := env.service.value;
    var created := Order(env.orderId, req.user.value, svc.id, svc.price, PurchaseCost(env), req.target,
                         Processing, None, None, 0);
    var f := Fulfil(AttemptsOf(req, env), created, d.logs);
    NullProviderRowsAppend(d.logs, LoopLogs(AttemptsOf(req, env), 0));
    LoopLogsNullRows(AttemptsOf(req, env), 0);
    assert (d.orders + [f.order])[..|d.orders|] == d.orders;
    Step(d.(orders := d.orders + [f.order], logs := f.logs), f.reply)
  }

  /** The request handler: the checks that raise before any write, then
      the charged path. */
  function Purchase(req: Request, env: Env, s: State): (r: Step)
    requires |env.outcomes| >= MaxAttempts
    // Errors raised before the order exists reply 400; the order exists exactly when they did not.
    ensures StatusCode(r.reply) == 400 <==> r.state.orders == s.orders
    ensures StatusCode(r.reply) == 400 <==> !Charged(req, env, s) || env.faults.orderInsertFails
    // Nothing is written unless the balance was debited.
    ensures !Charged(req, env, s) ==> r.state == s
    ensures req.user.None? ==> r.reply == BadRequest("Unauthorized")
    ensures req.user.Some? && env.service.None? ==> r.reply == BadRequest("Service not found")
    ensures req.user.Some? && env.service.Some? && env.profile.None? ==> r.reply == BadRequest("Profile not found")
    ensures Found(req, env) && s.balance >= PurchaseCost(env) && env.faults.balanceWriteFails ==>
              r.reply == BadRequest("Failed to deduct balance")
    ensures r.reply == BadRequest("Insufficient balance") <==>
              Found(req, env) && s.balance < PurchaseCost(env)
    // The charged path: the debit, then the order insert, which on failure
    // writes the old balance back and keeps the debit row.
    ensures Charged(req, env, s) ==> s.balance - PurchaseCost(env) >= 0.0
    ensures Charged(req, env, s) && env.faults.orderInsertFails ==>
              r.reply == BadRequest("Failed to create order")
              && r.state == DebitWallet(req, env, s).(balance := s.balance)
    ensures Charged(req, env, s) && !env.faults.orderInsertFails ==>
              r == PlaceOrder(req, env, DebitWallet(req, env, s))
  {
    if req.user.None? then Step(s, BadRequest("Unauthorized"))
    else if env.service.None? then Step(s, BadRequest("Service not found"))
    else if env.profile.None? then Step(s, BadRequest("Profile not found"))
    else if s.balance < PurchaseCost(env) then Step(s, BadRequest("Insufficient balance"))
    else if env.faults.balanceWriteFails then Step(s, BadRequest("Failed to deduct balance"))
    else
      var d := DebitWallet(req, env, s);
      if env.faults.orderInsertFails then Step(d.(balance := s.balance), BadRequest("Failed to create order"))
      else PlaceOrder(req, env, d)
  }
}

=== FILE: vtu_order_properties.dfy ===
/** Properties of the purchase handler that relate it to the wallet ledger
    and to concrete request scenarios. */
module VtuOrderProperties {
  import opened Common
  import opened Schema
  import Ledger
  import Providers
  import opened VtuOrder

  /** Ledger conservation: when every write the handler makes takes effect,
      a wallet whose transaction rows chain from an opening balance to the
      current balance still does so after the request, whatever its
      outcome. */
  lemma PurchaseKeepsLedgerLinked(req: Request, env: Env, s: State, opening: real)
    requires |env.outcomes| >= MaxAttempts
    requires Ledger.Linked(s.transactions, opening, s.balance)
    requires !env.faults.transactionInsertFails && !env.faults.orderInsertFails
    ensures var r := Purchase(req, env, s);
            Ledger.Linked(r.state.transactions, opening, r.state.balance)
  {
    var r := Purchase(req, env, s);
    if Charged(req, env, s) {
      var t := r.state.transactions[|s.transactions|];
      assert r.state.transactions == s.transactions + [t];
      assert Ledger.RowConsistent(t);
      Ledger.AppendLinked(s.transactions, opening, s.balance, t);
    }
  }

  /** When the order insert fails the handler writes the old balance back
      but leaves the debit row in place, so for any non-zero cost the
      wallet's rows no longer add up to its balance. */
  lemma OrderInsertFailureBreaksLedger(req: Request, env: Env, s: State, opening: real)
    requires |env.outcomes| >= MaxAttempts
    requires Ledger.Linked(s.transactions, opening, s.balance)
    requires Charged(req, env, s) && PurchaseCost(env) != 0.0
    requires env.faults.orderInsertFails && !env.faults.transactionInsertFails
    ensures var r := Purchase(req, env, s);
            r.reply == BadRequest("Failed to create order")
            && r.state.balance == s.balance
            && !Ledger.Linked(r.state.transactions, opening, r.state.balance)
  {
    var r := Purchase(req, env, s);
    var t := r.state.transactions[|s.transactions|];
    assert r.state.transactions == s.transactions + [t];
    Ledger.AppendLinked(s.transactions, opening, s.balance, t);
    Ledger.LinkedConserves(s.transactions, opening, s.balance);
    if Ledger.Linked(r.state.transactions, opening, r.state.balance) {
      Ledger.LinkedConserves(r.state.transactions, opening, r.state.balance);
      assert false;
    }
  }

  /** The wallet-transaction insert is not checked: if it fails, the
      balance is debited with no row to account for it. */
  lemma MissingDebitRowBreaksLedger(req: Request, env: Env, s: State, opening: real)
    requires |env.outcomes| >= MaxAttempts
    requires Ledger.Linked(s.transactions, opening, s.balance)
    requires Charged(req, env, s) && PurchaseCost(env) != 0.0
    requires env.faults.transactionInsertFails && !env.faults.orderInsertFails
    ensures var r := Purchase(req, env, s);
            r.reply != BadRequest("Failed to create order")
            && !Ledger.Linked(r.state.transactions, opening, r.state.balance)
  {
    var r := Purchase(req, env, s);
    Ledger.LinkedConserves(s.transactions, opening, s.balance);
    if Ledger.Linked(r.state.transactions, opening, r.state.balance) {
      Ledger.LinkedConserves(r.state.transactions, opening, r.state.balance);
      assert false;
    }
  }

  /** No refund: an order that exhausts its attempts leaves the balance at
      the old balance minus the cost, and the only row the request added to
      the ledger is the debit. */
  lemma NoRefundAfterExhaustion(req: Request, env: Env, s: State)
    requires |env.outcomes| >= MaxAttempts
    requires !env.faults.transactionInsertFails
    ensures var r := Purchase(req, env, s);
            r.reply.OrderFailed? ==>
              && r.state.balance == s.balance - PurchaseCost(env)
              && |r.state.transactions| == |s.transactions| + 1
              && r.state.transactions[|s.transactions|].kind == Debit
  {
  }

  /** Every log row that an exhausted order adds names no provider and has
      status 0, so after three failed calls to a real provider the order
      shows `retry_count` 3 and no log row naming that provider. */
  lemma ExhaustedOrderLogsNameNoProvider(req: Request, env: Env, s: State)
    requires |env.outcomes| >= MaxAttempts
    requires Charged(req, env, s) && !env.faults.orderInsertFails
    ensures var r := Purchase(req, env, s);
            r.reply.OrderFailed? ==>
              && |r.state.logs| == |s.logs| + MaxAttempts
              && forall i :: |s.logs| <= i < |r.state.logs| ==>
                   r.state.logs[i].providerId.None? && r.state.logs[i].statusCode == 0
  {
    var r := Purchase(req, env, s);
    var ctx := AttemptsOf(req, env);
    if r.reply.OrderFailed? {
      assert FirstFulfilled(ctx, 0).None?;
      forall i | |s.logs| <= i < |r.state.logs|
        ensures r.state.logs[i].providerId.None? && r.state.logs[i].statusCode == 0
      {
        var a := i - |s.logs|;
        LoopLogsAt(ctx, 0, a);
        assert AttemptAt(ctx, a).AttemptFailed?;
        assert r.state.logs[i] == LoopLogs(ctx, 0)[a];
      }
    }
  }

  // ---- Concrete scenarios -------------------------------------------------

  const Buyer: UserId := "user-1"
  const Airtime: Service := Service("svc-1", "Airtime 20", 20.0, None)
  const Regular: AgentTerms := AgentTerms(false, None)
  const NoFaults: Faults := Faults(false, false, false)
  const MainProvider: Provider := Provider("prov-1", "Main", true, 10)

  function ScenarioEnv(providers: seq<Provider>, outcomes: seq<Outcome>): Env {
    Env(Some(Airtime), Some(Regular), NoFaults, "order-1", 0, providers, outcomes)
  }

  const Wallet100: State := State(100.0, [], [], [])

  const BuyerRequest: Request := Request(Some(Buyer), "svc-1", "08030000000")

  /** In every scenario the service costs 20, and a wallet holding at
      least that much is charged and goes on to place the order. */
  lemma ScenarioIsCharged(providers: seq<Provider>, outcomes: seq<Outcome>, s: State)
    requires |outcomes| >= MaxAttempts && s.balance >= 20.0
    ensures var env := ScenarioEnv(providers, outcomes);
            && PurchaseCost(env) == 20.0 && Charged(BuyerRequest, env, s)
            && Purchase(BuyerRequest, env, s) == PlaceOrder(BuyerRequest, env, DebitWallet(BuyerRequest, env, s))
  {
  }

  /** A provider that always succeeds: the order completes with the first
      reference, the balance drops by the cost, one debit row is written,
      and one log row names the provider with status 200. */
  lemma ScenarioProviderSucceeds()
    ensures var r := Purchase(BuyerRequest,
                              ScenarioEnv([MainProvider], [Success("R1"), Success("R2"), Success("R3")]),
                              Wallet100);
            && r.reply.Ok? && StatusCode(r.reply) == 200
            && r.state.balance == 80.0
            && |r.state.transactions| == 1
            && r.state.transactions[0].kind == Debit && r.state.transactions[0].amount == 20.0
            && |r.state.orders| == 1
            && r.state.orders[0].status == Completed && r.state.orders[0].providerRef == Some("R1")
            && r.state.orders[0].retryCount == 0
            && |r.state.logs| == 1
            && r.state.logs[0].providerId == Some("prov-1") && r.state.logs[0].statusCode == 200
  {
    var outcomes := [Success("R1"), Success("R2"), Success("R3")];
    ScenarioIsCharged([MainProvider], outcomes, Wallet100);
    var ctx := AttemptsOf(BuyerRequest, ScenarioEnv([MainProvider], outcomes));
    assert ctx.top == Some(MainProvider);
    assert AttemptAt(ctx, 0) == Fulfilled(MainProvider, "R1");
    assert FirstFulfilled(ctx, 0) == Some(0);
  }

  /** A provider that always fails: the order ends failed with
      `retry_count` 3 and three failure log rows, and the balance is NOT
      restored: it stays at 80. */
  lemma ScenarioProviderAlwaysFails()
    ensures var err := Failure("Provider API error");
            var r := Purchase(BuyerRequest,
                              ScenarioEnv([MainProvider], [err, err, err]),
                              Wallet100);
            && r.reply == OrderFailed("Provider API error") && StatusCode(r.reply) == 500
            && r.state.balance == 80.0
            && |r.state.transactions| == 1 && r.state.transactions[0].kind == Debit
            && |r.state.orders| == 1
            && r.state.orders[0].status == Failed && r.state.orders[0].retryCount == 3
            && r.state.orders[0].errorMessage == Some("Provider API error")
            && |r.state.logs| == 3
  {
    var err := Failure("Provider API error");
    ScenarioIsCharged([MainProvider], [err, err, err], Wallet100);
    var ctx := AttemptsOf(BuyerRequest, ScenarioEnv([MainProvider], [err, err, err]));
    assert ctx.top == Some(MainProvider);
    assert AttemptAt(ctx, 2) == AttemptFailed("Provider API error");
    assert FirstFulfilled(ctx, 0) == None;
  }

  /** No enabled provider: each of the three attempts fails with "No
      providers available" and counts, so the order ends failed with
      `retry_count` 3 and three log rows, and the balance stays debited. */
  lemma ScenarioNoProviders()
    ensures var ok := Success("never used");
            var r := Purchase(BuyerRequest,
                              ScenarioEnv([MainProvider.(enabled := false)], [ok, ok, ok]),
                              Wallet100);
            && r.reply == OrderFailed(NoProvidersMessage)
            && r.state.balance == 80.0
            && |r.state.orders| == 1
            && r.state.orders[0].status == Failed && r.state.orders[0].retryCount == 3
            && |r.state.logs| == 3
            && NullProviderRows(r.state.logs) == 3
  {
    var ok := Success("never used");
    ScenarioIsCharged([MainProvider.(enabled := false)], [ok, ok, ok], Wallet100);
    var ctx := AttemptsOf(BuyerRequest, ScenarioEnv([MainProvider.(enabled := false)], [ok, ok, ok]));
    assert ctx.top == None;
    assert FirstFulfilled(ctx, 0) == None;
  }

  /** Insufficient balance: rejected with 400 and nothing written. */
  lemma ScenarioInsufficientBalance()
    ensures var ok := Success("R1");
            var s := State(10.0, [], [], []);
            var r := Purchase(BuyerRequest,
                              ScenarioEnv([MainProvider], [ok, ok, ok]), s);
            r.reply == BadRequest("Insufficient balance") && StatusCode(r.reply) == 400 && r.state == s
  {
  }

  /** A balance exactly equal to the cost is accepted and ends at zero. */
  lemma ScenarioExactBalance()
    ensures var ok := Success("R1");
            var r := Purchase(BuyerRequest,
                              ScenarioEnv([MainProvider], [ok, ok, ok]), State(20.0, [], [], []));
            r.reply.Ok? && r.state.balance == 0.0
  {
    var ok := Success("R1");
    ScenarioIsCharged([MainProvider], [ok, ok, ok], State(20.0, [], [], []));
    var ctx := AttemptsOf(BuyerRequest, ScenarioEnv([MainProvider], [ok, ok, ok]));
    assert ctx.top == Some(MainProvider);
    assert FirstFulfilled(ctx, 0) == Some(0);
  }

  /** A second enabled provider is no fallback: when the top provider fails
      twice and would succeed on the third try, it is still the top
      provider that fulfils the order, on attempt 3, after `retry_count`
      reached 2. */
  lemma ScenarioNoFailover()
    ensures var backup := Provider("prov-2", "Backup", true, 5);
            var err := Failure("Provider API error");
            var r := Purchase(BuyerRequest,
                              ScenarioEnv([backup, MainProvider], [err, err, Success("R3")]),
                              Wallet100);
            && r.reply.Ok?
            && |r.state.orders| == 1 && r.state.orders[0].retryCount == 2
            && r.state.orders[0].providerRef == Some("R3")
            && |r.state.logs| == 3 && r.state.logs[2].providerId == Some("prov-1")
  {
    var backup := Provider("prov-2", "Backup", true, 5);
    var err := Failure("Provider API error");
    var outcomes := [err, err, Success("R3")];
    Providers.HigherPriorityIsPicked(backup, MainProvider);
    ScenarioIsCharged([backup, MainProvider], outcomes, Wallet100);
    var ctx := AttemptsOf(BuyerRequest, ScenarioEnv([backup, MainProvider], outcomes));
    assert ctx.top == Some(MainProvider);
    assert AttemptAt(ctx, 2) == Fulfilled(MainProvider, "R3");
    assert FirstFulfilled(ctx, 0) == Some(2);
  }
}
